=== FILE: README.md ===
# CHIP-8 interpreter core in Dafny

This project models the virtual CPU of a CHIP-8 interpreter written in C++ (`src/Chip.cpp`). That covers:

- 4 KiB of memory with the built-in hexadecimal font at 0x50;
- sixteen 8-bit registers V0–VF, the 16-bit index register I and the program counter;
- a sixteen-slot call stack with its stack pointer;
- the delay and sound timers;
- a 64×32 framebuffer of 32-bit pixels;
- the sixteen-key keypad;
- the fetch/decode/execute cycle, with its four dispatch tables and all 34 opcode routines plus the no-op `OP_NULL`.

The model has two layers.

- **Specification functions** work on a value `Machine.State`.
  - `Machine.Initial` is the constructor, and `Machine.Load` is the ROM copy.
  - `Opcodes.OpXXXX` is one function per routine.
  - `Dispatch.Decode` and `Dispatch.Execute` are the dispatch tables.
  - `Dispatch.Cycle` is fetch, `pc += 2`, execute, then the timer ticks.
- **The class `Cpu.Chip`** is the interpreter as the C++ writes it.
  - Its fields are arrays and scalars that its methods update in place: one method per routine, the `Table*` methods, `Cycle`, `LoadRom` and the constructor.
  - Each method is proved to leave the machine in the state that its specification function computes from the old state (`Snapshot() == Opcodes.OpXXXX(old(Snapshot()), opcode)`).
  - The ROM copy, the key scan of `Fx0A`, the `Fx55`, `Fx65` and `Dxyn` loops and the font copy in the constructor are `while` loops with invariants.

The properties of the interpreter are proved about the specification layer. Lemmas relating several routines or several cycles are in module `Properties`.

Fixed-width arithmetic is written out:

- `uint8_t` and `uint16_t` values are the subset types `Bits.Byte` and `Bits.Word`, with every wrap spelled `% 0x100` or `% 0x1_0000`.
- `|`, `&` and `^` on bytes are defined bit by bit (`Bits.Bitwise`).
- Pixels are `bv32`, and drawing XORs them with `0xFFFFFFFF`.

The C++ code has undefined behaviour in some places: reading or writing outside an array, such as `stack[16]`, `memory[index + i]` past 4095, or a sprite of height at least 1 whose bytes or cells run past memory or the framebuffer. There, the model has a precondition that excludes the undefined case. `Dispatch.Defined` and `Dispatch.CanCycle` gather these for one routine and for one cycle.

## Model

| member | source | states |
|---|---|---|
| Machine.Initial | src/Chip.cpp:32-43 | after construction `pc` is 0x200; `sp`, `I`, every register, stack slot, pixel, key and timer are 0; memory is `InitialMemory()`, the 80-byte font at 0x50 and zeros elsewhere |
| Machine.InitialMemory | src/Chip.cpp:41-43 | the font occupies 0x50..0x9F and every other byte is 0 |
| Machine.Load | src/Chip.cpp:104-107 | a ROM of at most 4096 - 0x200 bytes lands byte for byte at 0x200; every other address and all other state are unchanged |
| Machine.LoadKeepsFont | src/Chip.cpp:104-107 | loading a ROM never overwrites the font |
| Cpu.FontCopiedAll | src/Chip.cpp:41-43 | the constructor's font loop, run to the end, produces exactly the initial memory |
| Cpu.FontCopiedStep | src/Chip.cpp:41-43 | one iteration of the font loop writes only `memory[0x50 + i]`, with glyph byte `i` |
| Cpu.Chip.constructor | src/Chip.cpp:32-88 | the new machine's state is `Machine.Initial()`, in freshly allocated arrays |
| Cpu.Chip.LoadRom | src/Chip.cpp:104-107 | the copy loop leaves the machine in `Machine.Load(old state, rom)` |
| Cpu.Chip.Cycle | src/Chip.cpp:114-134 | fetches the big-endian opcode at `pc` and leaves the machine in `Dispatch.Cycle(old state, random)` |
| Cpu.Chip.Execute | src/Chip.cpp:123 | the top nibble selects the routine exactly as `Dispatch.Decode`/`Dispatch.Execute` do |
| Cpu.Chip.Table0 | src/Chip.cpp:483-485 | dispatches on the low nibble: 0 clears the screen, E returns; any other slot is taken to be a no-op |
| Cpu.Chip.Table8 | src/Chip.cpp:487-489 | dispatches on the low nibble to the nine ALU routines; the other seven slots are taken to be no-ops |
| Cpu.Chip.TableE | src/Chip.cpp:491-493 | dispatches on the low nibble: 1 is SKNP, E is SKP; any other slot is taken to be a no-op |
| Cpu.Chip.TableF | src/Chip.cpp:495-497 | dispatches on the low byte to the nine F routines; any other slot is taken to be a no-op |
| Cpu.Chip.OpNull | src/Chip.cpp:138-140 | changes nothing |
| Cpu.Chip.Op00E0 | src/Chip.cpp:143-145 | the state becomes `Opcodes.Op00E0` of the old state |
| Cpu.Chip.Op00EE | src/Chip.cpp:148-150 | the state becomes `Opcodes.Op00EE` of the old state |
| Cpu.Chip.Op1nnn | src/Chip.cpp:153-156 | the state becomes `Opcodes.Op1nnn` of the old state |
| Cpu.Chip.Op2nnn | src/Chip.cpp:159-164 | the state becomes `Opcodes.Op2nnn` of the old state |
| Cpu.Chip.Op3xkk | src/Chip.cpp:167-174 | the state becomes `Opcodes.Op3xkk` of the old state |
| Cpu.Chip.Op4xkk | src/Chip.cpp:177-184 | the state becomes `Opcodes.Op4xkk` of the old state |
| Cpu.Chip.Op5xy0 | src/Chip.cpp:187-194 | the state becomes `Opcodes.Op5xy0` of the old state |
| Cpu.Chip.Op6xkk | src/Chip.cpp:197-202 | the state becomes `Opcodes.Op6xkk` of the old state |
| Cpu.Chip.Op7xkk | src/Chip.cpp:205-210 | the state becomes `Opcodes.Op7xkk` of the old state |
| Cpu.Chip.Op8xy0 | src/Chip.cpp:213-218 | the state becomes `Opcodes.Op8xy0` of the old state |
| Cpu.Chip.Op8xy1 | src/Chip.cpp:221-226 | the state becomes `Opcodes.Op8xy1` of the old state |
| Cpu.Chip.Op8xy2 | src/Chip.cpp:229-234 | the state becomes `Opcodes.Op8xy2` of the old state |
| Cpu.Chip.Op8xy3 | src/Chip.cpp:237-242 | the state becomes `Opcodes.Op8xy3` of the old state |
| Cpu.Chip.Op8xy4 | src/Chip.cpp:245-258 | the state becomes `Opcodes.Op8xy4` of the old state |
| Cpu.Chip.Op8xy5 | src/Chip.cpp:261-272 | the state becomes `Opcodes.Op8xy5` of the old state |
| Cpu.Chip.Op8xy6 | src/Chip.cpp:275-282 | the state becomes `Opcodes.Op8xy6` of the old state |
| Cpu.Chip.Op8xy7 | src/Chip.cpp:285-296 | the state becomes `Opcodes.Op8xy7` of the old state |
| Cpu.Chip.Op8xyE | src/Chip.cpp:299-306 | the state becomes `Opcodes.Op8xyE` of the old state |
| Cpu.Chip.Op9xy0 | src/Chip.cpp:309-316 | the state becomes `Opcodes.Op9xy0` of the old state |
| Cpu.Chip.OpAnnn | src/Chip.cpp:319-323 | the state becomes `Opcodes.OpAnnn` of the old state |
| Cpu.Chip.OpBnnn | src/Chip.cpp:326-330 | the state becomes `Opcodes.OpBnnn` of the old state |
| Cpu.Chip.OpCxkk | src/Chip.cpp:333-338 | the state becomes `Opcodes.OpCxkk` of the old state and the given random byte |
| Cpu.Chip.OpDxyn | src/Chip.cpp:341-371 | the nested pixel loops leave the machine in `Opcodes.OpDxyn` of the old state; the row loop keeps the framebuffer equal to the first `row` rows drawn and VF equal to whether they collided |
| Cpu.Chip.DrawRow | src/Chip.cpp:355-369 | the column loop of one sprite row flips exactly the cells of the row's set bits and sets VF to 1 if one of them was lit, leaving it alone otherwise |
| Cpu.Chip.OpEx9E | src/Chip.cpp:374-381 | the state becomes `Opcodes.OpEx9E` of the old state |
| Cpu.Chip.OpExA1 | src/Chip.cpp:384-391 | the state becomes `Opcodes.OpExA1` of the old state |
| Cpu.Chip.OpFx07 | src/Chip.cpp:394-398 | the state becomes `Opcodes.OpFx07` of the old state |
| Cpu.Chip.OpFx0A | src/Chip.cpp:401-417 | the key scan leaves the machine in `Opcodes.OpFx0A` of the old state |
| Cpu.Chip.OpFx15 | src/Chip.cpp:420-424 | the state becomes `Opcodes.OpFx15` of the old state |
| Cpu.Chip.OpFx18 | src/Chip.cpp:427-431 | the state becomes `Opcodes.OpFx18` of the old state |
| Cpu.Chip.OpFx1E | src/Chip.cpp:434-438 | the state becomes `Opcodes.OpFx1E` of the old state |
| Cpu.Chip.OpFx29 | src/Chip.cpp:441-446 | the state becomes `Opcodes.OpFx29` of the old state |
| Cpu.Chip.OpFx33 | src/Chip.cpp:449-463 | the state becomes `Opcodes.OpFx33` of the old state |
| Cpu.Chip.OpFx55 | src/Chip.cpp:466-472 | the store loop leaves the machine in `Opcodes.OpFx55` of the old state |
| Cpu.Chip.OpFx65 | src/Chip.cpp:475-481 | the load loop leaves the machine in `Opcodes.OpFx65` of the old state |
| Opcodes.Family | src/Chip.cpp:123 | the routine family is the top nibble, 0..15 |
| Opcodes.OperandsReassemble | src/Chip.cpp:153-154 | family, x, y and n put back together give the opcode; kk is y and n, and nnn is x and kk |
| Opcodes.OpNull | src/Chip.cpp:138-140 | the state is unchanged |
| Opcodes.Op00E0 | src/Chip.cpp:143-145 | every pixel is 0 and nothing else changes |
| Opcodes.Op00EE | src/Chip.cpp:148-150 | `pc` becomes the stack slot at the current `sp` (read before the decrement), and `sp` goes down by one, wrapping from 0 to 0xFFFF |
| Opcodes.Op1nnn | src/Chip.cpp:153-156 | `pc` becomes nnn and nothing else changes |
| Opcodes.Op2nnn | src/Chip.cpp:159-164 | `pc` is stored at `stack[sp]` (other slots kept), `sp` goes up by one and `pc` becomes nnn |
| Opcodes.Op3xkk | src/Chip.cpp:167-174 | `pc` moves on by 2 exactly when Vx == kk; nothing else changes |
| Opcodes.Op4xkk | src/Chip.cpp:177-184 | `pc` moves on by 2 exactly when Vx != kk; nothing else changes |
| Opcodes.Op5xy0 | src/Chip.cpp:187-194 | `pc` moves on by 2 exactly when Vx == Vy; nothing else changes |
| Opcodes.Op6xkk | src/Chip.cpp:197-202 | Vx becomes kk; every other register and all other state are unchanged |
| Opcodes.Op7xkk | src/Chip.cpp:205-210 | Vx becomes Vx + kk modulo 256; VF is not touched (unless x is F) |
| Opcodes.Op8xy0 | src/Chip.cpp:213-218 | Vx becomes Vy; nothing else changes |
| Opcodes.Op8xy1 | src/Chip.cpp:221-226 | each bit of Vx becomes the OR of the old bits of Vx and Vy |
| Opcodes.Op8xy2 | src/Chip.cpp:229-234 | each bit of Vx becomes the AND of the old bits of Vx and Vy |
| Opcodes.Op8xy3 | src/Chip.cpp:237-242 | each bit of Vx becomes the XOR of the old bits of Vx and Vy |
| Opcodes.Op8xy4 | src/Chip.cpp:245-258 | VF is 1 exactly when Vx + Vy exceeds 255, and Vx is the sum modulo 256; when x is F the sum overwrites the flag |
| Opcodes.Op8xy5 | src/Chip.cpp:261-272 | VF is 1 exactly when Vx > Vy (strictly), and Vx is Vx - Vy modulo 256; when x is F the difference overwrites the flag |
| Opcodes.Op8xy6 | src/Chip.cpp:275-282 | 2·(new Vx) + VF equals the old Vx (VF is the bit shifted out); with x = F, VF ends 0 |
| Opcodes.Op8xy7 | src/Chip.cpp:285-296 | VF is 1 exactly when Vy > Vx (strictly), and Vx is Vy - Vx modulo 256 |
| Opcodes.Op8xyE | src/Chip.cpp:299-306 | new Vx + 256·VF equals twice the old Vx (VF is the bit shifted out); with x = F, VF ends as twice the old top bit |
| Opcodes.Op9xy0 | src/Chip.cpp:309-316 | `pc` moves on by 2 exactly when Vx != Vy; nothing else changes |
| Opcodes.OpAnnn | src/Chip.cpp:319-323 | I becomes nnn and nothing else changes |
| Opcodes.OpBnnn | src/Chip.cpp:326-330 | `pc` becomes V0 + nnn, which never wraps 16 bits |
| Opcodes.OpCxkk | src/Chip.cpp:333-338 | each bit of Vx is set exactly when it is set in both the random byte and kk |
| Opcodes.XPos | src/Chip.cpp:347 | the sprite origin column is the one column in 0..63 that differs from Vx by a multiple of 64 |
| Opcodes.YPos | src/Chip.cpp:348 | the sprite origin row is the one row in 0..31 that differs from Vy by a multiple of 32 |
| Opcodes.SpriteRows | src/Chip.cpp:352-353 | the sprite has n rows, and row r is the memory byte at I + r (no rows when n is 0) |
| Opcodes.OpDxyn | src/Chip.cpp:341-371 | only the framebuffer and the registers change |
| Opcodes.DrawProperties | src/Chip.cpp:341-371 | DRW flips exactly the cells under the sprite's set bits, leaves every other cell as it was, sets VF to 1 exactly when a set bit lands on a lit cell (0 otherwise), and keeps V0–VE |
| Opcodes.DrawByRows | src/Chip.cpp:350-370 | DRW equals the row-by-row, column-by-column drawing the nested loops perform, with VF cleared first |
| Opcodes.OpEx9E | src/Chip.cpp:374-381 | `pc` moves on by 2 exactly when key Vx is down |
| Opcodes.OpExA1 | src/Chip.cpp:384-391 | `pc` moves on by 2 exactly when key Vx is up |
| Opcodes.OpFx07 | src/Chip.cpp:394-398 | Vx becomes the delay timer |
| Opcodes.LowestPressed | src/Chip.cpp:404-412 | finds a key that is down with none lower, or reports that no key at or after the start is down |
| Opcodes.OpFx0A | src/Chip.cpp:401-417 | with a key down, Vx becomes the lowest key that is down and `pc` is kept; with none, `pc` goes back by 2 and the registers are kept |
| Opcodes.OpFx15 | src/Chip.cpp:420-424 | the delay timer becomes Vx |
| Opcodes.OpFx18 | src/Chip.cpp:427-431 | the sound timer becomes Vx |
| Opcodes.OpFx1E | src/Chip.cpp:434-438 | I becomes I + Vx modulo 65536 |
| Opcodes.OpFx29 | src/Chip.cpp:441-446 | I becomes 0x50 + 5·Vx for every Vx, and nothing else changes; with a digit 0..F in Vx and the font in place, that is the address of the digit's five-byte glyph |
| Opcodes.OpFx33 | src/Chip.cpp:449-463 | I, I+1 and I+2 get decimal digits whose value is Vx; no other byte changes |
| Opcodes.OpFx55 | src/Chip.cpp:466-472 | memory[I..I+x] becomes V0..Vx; no other byte changes and I is not incremented |
| Opcodes.OpFx65 | src/Chip.cpp:475-481 | V0..Vx become memory[I..I+x]; the higher registers and I are unchanged |
| Dispatch.Decode | src/Chip.cpp:46-87 | opcodes 00E0 and 00EE select CLS and RET |
| Dispatch.DecodeByFamily | src/Chip.cpp:46-61 | each top nibble selects its routine, or the sub-table keyed by the low nibble (0, 8, E) or the low byte (F) |
| Dispatch.DecodeNull | src/Chip.cpp:63-87 | an opcode decodes to the no-op exactly when its sub-table has no entry for it (the no-op there is an assumption, see below) |
| Dispatch.JumpRoutes | src/Chip.cpp:47-48 | families 1, 2 and B run JP, CALL and JP V0 |
| Dispatch.SkipRoutes | src/Chip.cpp:49-55 | families 3, 4, 5 and 9 run the four conditional skips |
| Dispatch.LoadRoutes | src/Chip.cpp:52-58 | families 6, 7, A and C run LD, ADD, LD I and RND, RND with the cycle's random byte |
| Dispatch.TableRoutes | src/Chip.cpp:483-497 | families 0, 8, E and F defer to their sub-tables, which ignore the random byte |
| Dispatch.DrawRoute | src/Chip.cpp:59 | family D runs DRW |
| Dispatch.Table8Routes | src/Chip.cpp:66-69 | sub-opcodes 0–3 of family 8 run LD, OR, AND and XOR |
| Dispatch.Table8ArithmeticRoutes | src/Chip.cpp:70-74 | sub-opcodes 4–7 and E of family 8 run ADD, SUB, SHR, SUBN and SHL; every other sub-opcode leaves the state unchanged |
| Dispatch.WaitRoute | src/Chip.cpp:80 | the slot for F-family low byte 0x0A runs the key wait, and the random byte plays no part |
| Dispatch.ExecuteIgnoresRandom | src/Chip.cpp:333-338 | only RND depends on the random byte |
| Dispatch.Execute | src/Chip.cpp:123 | no routine writes the keypad |
| Dispatch.Fetch | src/Chip.cpp:117 | the opcode's high byte is `memory[pc]` and its low byte `memory[pc + 1]` |
| Dispatch.Advance | src/Chip.cpp:120 | `pc` goes up by 2 modulo 65536 and nothing else changes |
| Dispatch.TimerStep | src/Chip.cpp:126-133 | a running timer goes down by one and a stopped one stays at 0 |
| Dispatch.Cycle | src/Chip.cpp:114-134 | the timers tick after the routine runs: a timer written by LD DT/ST is decremented in the same cycle; the keypad is untouched |
| Draw.MaskedBit | src/Chip.cpp:356 | `spriteByte & (0x80 >> col)` is nonzero exactly when bit 7 - col of the sprite byte is set |
| Draw.DrawSpec | src/Chip.cpp:350-370 | the offset-ordered flipping of all sprite cells flips the targets, keeps the rest and reports a collision exactly when a set bit meets a lit cell |
| Draw.FlipTwice | src/Chip.cpp:367 | flipping the same cells twice restores the framebuffer |
| Draw.CollidesAfterFlip | src/Chip.cpp:360-363 | after a flip, a set bit meets a lit cell exactly where the cell was dark before |
| Draw.ColumnStep | src/Chip.cpp:356-366 | one inner iteration flips the target cell when the masked bit is set and keeps the framebuffer otherwise; the index is in range |
| Draw.ColumnStepCollides | src/Chip.cpp:359-363 | one inner iteration reports a collision exactly when the masked bit is set and the target is lit |
| Draw.RowsFlipped | src/Chip.cpp:352-370 | drawing the first n rows one after the other equals flipping all cells of those rows |
| Draw.RowsCollides | src/Chip.cpp:352-370 | the rows collide one after the other exactly when the whole n-row flip collides |
| Properties.TimersCountDown | src/Chip.cpp:125-133 | given n cycles that can all run and none of which is LD DT/ST, the run completes and a timer at t ends at max(t - n, 0) |
| Properties.RunKeepsKeypad | src/Chip.cpp:114-134 | no run of cycles changes the keypad |
| Properties.CycleSkip | src/Chip.cpp:119-123 | because `pc += 2` precedes execution, a taken SE skip lands 4 past the instruction and an untaken one 2 past it |
| Properties.SkipsIffCondition | src/Chip.cpp:167-194 | each of the six skips changes `pc` exactly when its condition holds |
| Properties.CallStoresNext | src/Chip.cpp:119-123 | CALL pushes the address of the instruction after it |
| Properties.WaitRepeats | src/Chip.cpp:414-416 | LD Vx, K with no key down makes the cycle change only the timers, and the next fetch is the same instruction |
| Properties.WaitTakesLowestKey | src/Chip.cpp:404-412 | with some key down, Vx gets the lowest key that is down and execution moves on by 2 |
| Properties.CallThenReturn | src/Chip.cpp:148-164 | CALL then RET restores `sp` and leaves the return address in `stack[sp]`, but `pc` becomes `stack[sp + 1]`, the slot above |
| Properties.FirstCallReturnsToZero | src/Chip.cpp:148-164 | from the freshly built machine, CALL then RET sends `pc` to 0, not back to the caller |
| Properties.DrawTwiceRestores | src/Chip.cpp:341-371 | drawing a sprite twice restores every cell; the second draw reports a collision exactly when a target was dark before the first |
| Properties.EmptySpriteClearsFlag | src/Chip.cpp:341-352 | Dxy0 decodes to DRW and runs for every I; it only clears VF |
| Properties.OriginWraps | src/Chip.cpp:347-348 | Vx and Vx - 64 draw the same cells and report the same collision |
| Properties.StoreThenLoad | src/Chip.cpp:466-481 | LD [I], Vx followed by LD Vx, [I] changes nothing further |
| Properties.LoadThenStore | src/Chip.cpp:466-481 | LD Vx, [I] followed by LD [I], Vx changes nothing further |
| Properties.ShiftsIgnoreY | src/Chip.cpp:275-306 | SHR and SHL do not depend on y |
| Properties.AddCarryExample | src/Chip.cpp:245-258 | 8014 with V0 = FF and V1 = 1 gives V0 = 0 and VF = 1 |
| Properties.SubEqualExample | src/Chip.cpp:261-272 | 8015 with V0 = V1 gives V0 = 0 and VF = 0 |
| Properties.DecimalExample | src/Chip.cpp:449-463 | F033 with V0 = 254 writes 2, 5, 4 |
| Properties.GlyphAfterLoad | src/Chip.cpp:441-446 | after construction and loading any ROM, LD F, Vx points I at the glyph of the digit in Vx |

## Left out

- Reading the ROM from a file (`LoadROM`'s stream handling, lines 90-103) is not modelled. `Machine.Load` and `Cpu.Chip.LoadRom` take the bytes as a parameter.
- Seeding and drawing from the random number generator are not modelled. The byte RND uses is a parameter of `Cycle`, `Execute` and `OpCxkk`.
- `src/main.cpp` is not part of this model: the host loop, the timing, the window and the key events.
- `View.hpp` is not part of this model: the renderer and the keyboard reader. The keypad is state that only the host writes.
- `Chip.hpp` is not part of this model.
  - The sizes (4096 bytes of memory, 16 registers, 16 stack slots, a 64×32 framebuffer, 16 keys) are taken from the usual CHIP-8 layout. `Chip.cpp` itself defines only the start address, the font size and the font address (lines 8-10).
  - The fields are taken to be zero when constructed.
  - `sp` is taken to be 16 bits wide, so RET with `sp` = 0 wraps it to 0xFFFF.
  - A key is down when its byte is nonzero.
- Machine.Load: a ROM longer than 4096 - 0x200 bytes is excluded by a precondition. The C++ code does not reject it but writes past the end of memory.
- Every routine that would index outside its array has a precondition that excludes that case (undefined behaviour in C++):
  - CALL with `sp` ≥ 16 (including 0xFFFF after a RET at `sp` = 0);
  - RET with `sp` ≥ 16;
  - Ex9E/ExA1 with Vx > 15;
  - Fx33/Fx55/Fx65 past address 4095;
  - DRW with n ≥ 1 and sprite bytes past 4095 or cells past 2047 (DRW with n = 0 runs for every I and only clears VF);
  - fetching at `pc` ≥ 4095.
- The model does not signal or handle these cases.
- Cpu.Chip.DrawRow is a helper method for the inner loop of `OP_Dxyn`. The C++ has one function with nested loops.
- Opcodes.OpDxyn: the function's own contract says only which parts of the state may change. Its cell-level meaning is stated by `Opcodes.DrawProperties` and `Opcodes.DrawByRows`.
- Dispatch.Decode: the contract names only CLS and RET. The full routing is stated by `Dispatch.DecodeByFamily`, the `*Routes` lemmas and `Dispatch.DecodeNull`.
- Dispatch.DecodeNull, Cpu.Chip.Table0, Cpu.Chip.Table8, Cpu.Chip.TableE, Cpu.Chip.TableF: unmapped sub-table slots are taken to do nothing. The constructor (lines 63-87) never installs `OP_NULL` (lines 138-140) in them, so in the C++ code calling one goes through an empty member-function pointer and is undefined.
- Dispatch.Execute: the contract states only that the keypad is kept. What each routine does is stated by the route lemmas and the `Opcodes` functions.

### Behaviour of the code a reader may not expect

- `LoadROM` copies every byte of the file to `memory[0x200 + i]` with no size check (src/Chip.cpp:104-107), so a ROM longer than 4096 - 0x200 bytes writes past the end of memory.
- `OP_00EE` reads `stack[sp--]` (src/Chip.cpp:149): the slot at `sp`, before the decrement. `OP_2nnn` writes `stack[sp++]` (src/Chip.cpp:162): the slot at `sp`, before the increment. So CALL followed by RET restores `sp` but sets `pc` to the slot above the return address, not to the caller (`Properties.CallThenReturn`, `Properties.FirstCallReturnsToZero`). Neither routine checks `sp` against the stack size.
- The collision test (src/Chip.cpp:360-363) sets VF only where a set sprite bit meets a lit cell. So drawing the same sprite a second time restores every cell (src/Chip.cpp:367) but reports a collision only when one of its target cells was dark before the first draw (`Properties.DrawTwiceRestores`).
- Only the origin is reduced modulo the screen size (src/Chip.cpp:347-348). The cell index `(yPos + row) * 64 + (xPos + col)` (src/Chip.cpp:357) is not wrapped again, so a cell past the right edge lands at the start of the next line (`Properties.OriginWraps` covers the origin).

=== FILE: bits.dfy ===
/**
 * Fixed-width integers of the CHIP-8 machine as bounded mathematical integers.
 *
 * `uint8_t` and `uint16_t` arithmetic wraps; every wrap is written out with
 * `% 0x100` or `% 0x1_0000`. The three bitwise operators the interpreter uses
 * on bytes (`|`, `&`, `^`) are defined bit by bit, least significant first.
 */
module Bits {

  /** An unsigned 8-bit value (`uint8_t`). */
  type Byte = x: int | 0 <= x < 0x100

  /** An unsigned 16-bit value (`uint16_t`). */
  type Word = x: int | 0 <= x < 0x1_0000

  /** `a + b` stored in a `uint8_t`: the sum without its ninth bit. */
  function Add8(a: Byte, b: Byte): (r: Byte)
    ensures r == a + b || r == a + b - 0x100
  {
    (a + b) % 0x100
  }

  /** `a - b` stored in a `uint8_t`: below zero it wraps to the top of the range. */
  function Sub8(a: Byte, b: Byte): (r: Byte)
    ensures r == a - b || r == a - b + 0x100
  {
    (a - b) % 0x100
  }

  /** `a += b` on a `uint16_t`. */
  function Add16(a: Word, b: Word): (r: Word)
    ensures r == a + b || r == a + b - 0x1_0000
  {
    (a + b) % 0x1_0000
  }

  /** `a -= b` on a `uint16_t`: below zero it wraps to the top of the range. */
  function Sub16(a: Word, b: Word): (r: Word)
    ensures r == a - b || r == a - b + 0x1_0000
  {
    (a - b) % 0x1_0000
  }

  /** Bit `i` of `a`, bit 0 being the least significant. */
  predicate Bit(a: nat, i: nat)
    decreases i
  {
    if i == 0 then a % 2 == 1 else Bit(a / 2, i - 1)
  }

  datatype BitOp = Or | And | Xor

  predicate Apply(op: BitOp, p: bool, q: bool)
  {
    match op
    case Or => p || q
    case And => p && q
    case Xor => p != q
  }

  /** `op` applied bit by bit to the low `width` bits of `a` and `b`. */
  function Bitwise(op: BitOp, a: nat, b: nat, width: nat): (r: nat)
    decreases width
  {
    if width == 0 then 0
    else 2 * Bitwise(op, a / 2, b / 2, width - 1) + (if Apply(op, a % 2 == 1, b % 2 == 1) then 1 else 0)
  }

  function Pow2(n: nat): (r: nat)
    ensures r >= 1
  {
    if n == 0 then 1 else 2 * Pow2(n - 1)
  }

  /** The result of a bitwise operation on `width` bits fits in `width` bits. */
  lemma {:induction false} BitwiseBound(op: BitOp, a: nat, b: nat, width: nat)
    ensures Bitwise(op, a, b, width) < Pow2(width)
    decreases width
  {
    if width > 0 {
      BitwiseBound(op, a / 2, b / 2, width - 1);
    }
  }

  /** Bit `i` of the result is `op` applied to bit `i` of each operand. */
  lemma {:induction false} BitwiseBit(op: BitOp, a: nat, b: nat, width: nat, i: nat)
    requires i < width
    ensures Bit(Bitwise(op, a, b, width), i) == Apply(op, Bit(a, i), Bit(b, i))
    decreases width
  {
    var rest := Bitwise(op, a / 2, b / 2, width - 1);
    var low := if Apply(op, a % 2 == 1, b % 2 == 1) then 1 else 0;
    assert Bitwise(op, a, b, width) == 2 * rest + low;
    assert (2 * rest + low) / 2 == rest;
    if i > 0 {
      BitwiseBit(op, a / 2, b / 2, width - 1, i - 1);
    }
  }

  function Or8(a: Byte, b: Byte): (r: Byte)
  {
    BitwiseBound(Or, a, b, 8);
    Bitwise(Or, a, b, 8)
  }

  function And8(a: Byte, b: Byte): (r: Byte)
  {
    BitwiseBound(And, a, b, 8);
    Bitwise(And, a, b, 8)
  }

  function Xor8(a: Byte, b: Byte): (r: Byte)
  {
    BitwiseBound(Xor, a, b, 8);
    Bitwise(Xor, a, b, 8)
  }

  /** Bits of `|`, `&` and `^` on bytes. */
  lemma ByteOpBits(a: Byte, b: Byte)
    ensures forall i :: 0 <= i < 8 ==> Bit(Or8(a, b), i) == (Bit(a, i) || Bit(b, i))
    ensures forall i :: 0 <= i < 8 ==> Bit(And8(a, b), i) == (Bit(a, i) && Bit(b, i))
    ensures forall i :: 0 <= i < 8 ==> Bit(Xor8(a, b), i) == (Bit(a, i) != Bit(b, i))
  {
    forall i | 0 <= i < 8
      ensures Bit(Or8(a, b), i) == (Bit(a, i) || Bit(b, i))
      ensures Bit(And8(a, b), i) == (Bit(a, i) && Bit(b, i))
      ensures Bit(Xor8(a, b), i) == (Bit(a, i) != Bit(b, i))
    {
      BitwiseBit(Or, a, b, 8, i);
      BitwiseBit(And, a, b, 8, i);
      BitwiseBit(Xor, a, b, 8, i);
    }
  }

  lemma {:induction false} AndZero(a: nat, width: nat)
    ensures Bitwise(And, a, 0, width) == 0
    decreases width
  {
    if width > 0 {
      AndZero(a / 2, width - 1);
    }
  }

  /** The only multiple of d strictly between -d and d is 0. */
  lemma OnlyZeroFits(d: int, e: int)
    requires d > 0 && -d < d * e < d
    ensures e == 0
  {
  }

  /** Euclidean division is unique. */
  lemma DivModUnique(a: int, d: int, q: int, r: int)
    requires d > 0 && a == d * q + r && 0 <= r < d
    ensures a / d == q && a % d == r
  {
    var e := a / d - q;
    assert d * e == r - a % d;
    OnlyZeroFits(d, e);
  }

  /** The low bits of `a` below 2m are bit 0 and, above it, the low bits of a / 2 below m. */
  lemma ModDouble(a: nat, m: nat)
    requires m > 0
    ensures a % (2 * m) == 2 * ((a / 2) % m) + a % 2
  {
    var s, t := (a / 2) / m, (a / 2) % m;
    assert a == (2 * m) * s + (2 * t + a % 2);
    DivModUnique(a, 2 * m, s, 2 * t + a % 2);
  }

  /**
   * Masking with a single bit 2^k keeps that bit and clears the rest: the
   * result is 2^k when `a` has bit k set (its remainder modulo 2^(k+1) is at
   * least 2^k) and 0 otherwise.
   */
  lemma {:induction false} AndPowerOfTwo(a: nat, k: nat, width: nat)
    requires k < width
    ensures Bitwise(And, a, Pow2(k), width) == if a % Pow2(k + 1) >= Pow2(k) then Pow2(k) else 0
    decreases k
  {
    if k == 0 {
      AndZero(a / 2, width - 1);
    } else {
      var m, h := Pow2(k), Pow2(k - 1);
      assert m == 2 * h && Pow2(k + 1) == 2 * m;
      assert m % 2 == 0 && m / 2 == h;
      var rest := Bitwise(And, a / 2, h, width - 1);
      assert Bitwise(And, a, m, width) == 2 * rest;
      AndPowerOfTwo(a / 2, k - 1, width - 1);
      ModDouble(a, m);
      assert (a / 2) % m >= h <==> a % (2 * m) >= m;
    }
  }

  /** `a & mask` for a one-bit mask 2^k: the mask when `a` has bit k set, otherwise 0. */
  lemma MaskIsBit(a: Byte, k: nat, mask: Byte)
    requires k < 8 && mask == Pow2(k)
    ensures And8(a, mask) == if a % (2 * mask) >= mask then mask else 0
  {
    AndPowerOfTwo(a, k, 8);
    assert Pow2(k + 1) == 2 * mask;
  }
}

=== FILE: chip.dfy ===
/**
 * The interpreter object: its memory, registers, stack, framebuffer and
 * keypad are arrays it updates in place, its counters and timers are fields.
 * Every method is proved to leave the machine in the state the matching
 * function of `Opcodes` or `Dispatch` computes from the state before it.
 */
module Cpu {
  import opened Bits
  import opened Machine
  import opened Draw
  import Opcodes
  import Dispatch

  /** Memory while the constructor copies the font: the first `count` font bytes are in place. */
  ghost function FontCopied(count: nat): (mem: seq<Byte>)
    requires count <= FontSize
    ensures |mem| == MemorySize
  {
    seq(MemorySize, a => if FontStart <= a < FontStart + count then Font[a - FontStart] else 0)
  }

  lemma FontCopiedStep(count: nat)
    requires count < FontSize
    ensures FontCopied(count + 1) == FontCopied(count)[FontStart + count := Font[count]]
  {
    var after, before := FontCopied(count + 1), FontCopied(count)[FontStart + count := Font[count]];
    forall a | 0 <= a < MemorySize
      ensures after[a] == before[a]
    {
      if a == FontStart + count {
        assert after[a] == Font[count];
      }
    }
  }

  lemma FontCopiedAll()
    ensures FontCopied(FontSize) == InitialMemory()
  {
  }

  class Chip {
    const memory: array<Byte>
    const registers: array<Byte>
    const stack: array<Word>
    const video: array<Pixel>
    /** One byte per key, nonzero while the key is down; the front end writes it. */
    const keypad: array<Byte>
    var index: Word
    var pc: Word
    var sp: Word
    var delayTimer: Byte
    var soundTimer: Byte
    /** The instruction being executed, set by the fetch. */
    var opcode: Word

    /** The arrays have the machine's sizes and the byte arrays are distinct. */
    ghost predicate Valid()
    {
      && memory.Length == MemorySize
      && registers.Length == RegisterCount
      && stack.Length == StackSize
      && video.Length == PixelCount
      && keypad.Length == KeyCount
      && memory != registers && memory != keypad && registers != keypad
    }

    /** The machine as a value. */
    ghost function Snapshot(): (m: State)
      reads this, memory, registers, stack, video, keypad
      requires Valid()
      ensures WellFormed(m)
    {
      State(memory[..], registers[..], index, pc, sp, stack[..], delayTimer, soundTimer, video[..], keypad[..])
    }

    /** Everything starts at zero, then `pc` is set and the font is copied in. */
    constructor ()
      ensures Valid()
      ensures fresh(memory) && fresh(registers) && fresh(stack) && fresh(video) && fresh(keypad)
      ensures Snapshot() == Initial() && opcode == 0
    {
      memory := new Byte[MemorySize](_ => 0);
      registers := new Byte[RegisterCount](_ => 0);
      stack := new Word[StackSize](_ => 0);
      video := new Pixel[PixelCount](_ => 0);
      keypad := new Byte[KeyCount](_ => 0);
      index, sp, delayTimer, soundTimer, opcode := 0, 0, 0, 0, 0;
      pc := StartAddress;
      new;
      var i := 0;
      while i < FontSize
        modifies memory
        invariant 0 <= i <= FontSize
        invariant memory[..] == FontCopied(i)
      {
        FontCopiedStep(i);
        memory[FontStart + i] := Font[i];
        i := i + 1;
      }
      FontCopiedAll();
    }

    /** Copies the ROM image, already read from its file, to memory from 0x200 on. */
    method LoadRom(rom: seq<Byte>)
      requires Valid() && |rom| <= MemorySize - StartAddress
      modifies memory
      ensures Snapshot() == Load(old(Snapshot()), rom)
    {
      var i := 0;
      while i < |rom|
        invariant 0 <= i <= |rom|
        invariant forall a :: 0 <= a < MemorySize ==>
                    memory[a] == if StartAddress <= a < StartAddress + i then rom[a - StartAddress] else old(memory[a])
      {
        memory[StartAddress + i] := rom[i];
        i := i + 1;
      }
      assert memory[..] == Load(old(Snapshot()), rom).memory;
    }

    /** Fetch, advance `pc`, run the routine the tables select, count the timers down. */
    method Cycle(random: Byte)
      requires Valid() && Dispatch.CanCycle(Snapshot())
      modifies this, memory, registers, stack, video
      ensures opcode == Dispatch.Fetch(old(Snapshot()))
      ensures Snapshot() == Dispatch.Cycle(old(Snapshot()), random)
    {
      opcode := memory[pc] as int * 0x100 + memory[pc + 1];
      pc := Add16(pc, 2);
      Execute(random);
      if delayTimer > 0 {
        delayTimer := delayTimer - 1;
      }
      if soundTimer > 0 {
        soundTimer := soundTimer - 1;
      }
    }

    /** The top-level table: the routine for the family `opcode >> 12`. */
    method Execute(random: Byte)
      requires Valid() && Dispatch.Defined(Snapshot(), Dispatch.Decode(opcode), opcode)
      modifies this`pc, this`index, this`sp, this`delayTimer, this`soundTimer, memory, registers, stack, video
      ensures Snapshot() == Dispatch.Execute(old(Snapshot()), Dispatch.Decode(opcode), opcode, random)
    {
      ghost var m := Snapshot();
      Dispatch.DecodeByFamily(opcode);
      Dispatch.JumpRoutes(m, opcode, random);
      Dispatch.SkipRoutes(m, opcode, random);
      Dispatch.LoadRoutes(m, opcode, random);
      Dispatch.TableRoutes(m, opcode, random);
      match Opcodes.Family(opcode)
      case 0x0 =>
        Table0();
      case 0x1 => Op1nnn();
      case 0x2 => Op2nnn();
      case 0x3 => Op3xkk();
      case 0x4 => Op4xkk();
      case 0x5 => Op5xy0();
      case 0x6 => Op6xkk();
      case 0x7 => Op7xkk();
      case 0x8 =>
        Table8();
      case 0x9 => Op9xy0();
      case 0xA => OpAnnn();
      case 0xB => OpBnnn();
      case 0xC => OpCxkk(random);
      case 0xD =>
        Dispatch.DrawRoute(m, opcode, random);
        OpDxyn();
      case 0xE =>
        TableE();
      case _ =>
        TableF();
    }

    /** `table0[opcode & 0xF]`. */
    method Table0()
      requires Valid() && Dispatch.Defined(Snapshot(), Dispatch.Table0(Opcodes.N(opcode)), opcode)
      modifies this`pc, this`sp, video
      ensures Snapshot() == Dispatch.Execute(old(Snapshot()), Dispatch.Table0(Opcodes.N(opcode)), opcode, 0)
    {
      var key := opcode % 0x10;
      if key == 0x0 {
        Op00E0();
      } else if key == 0xE {
        Op00EE();
      } else {
        OpNull();
      }
    }

    /** `table8[opcode & 0xF]`. */
    method Table8()
      requires Valid()
      modifies registers
      ensures Snapshot() == Dispatch.Execute(old(Snapshot()), Dispatch.Table8(Opcodes.N(opcode)), opcode, 0)
    {
      Dispatch.Table8Routes(Snapshot(), opcode);
      Dispatch.Table8ArithmeticRoutes(Snapshot(), opcode);
      match opcode % 0x10
      case 0x0 => Op8xy0();
      case 0x1 => Op8xy1();
      case 0x2 => Op8xy2();
      case 0x3 => Op8xy3();
      case 0x4 => Op8xy4();
      case 0x5 => Op8xy5();
      case 0x6 => Op8xy6();
      case 0x7 => Op8xy7();
      case 0xE => Op8xyE();
      case _ => OpNull();
    }

    /** `tableE[opcode & 0xF]`. */
    method TableE()
      requires Valid() && Dispatch.Defined(Snapshot(), Dispatch.TableE(Opcodes.N(opcode)), opcode)
      modifies this`pc
      ensures Snapshot() == Dispatch.Execute(old(Snapshot()), Dispatch.TableE(Opcodes.N(opcode)), opcode, 0)
    {
      var key := opcode % 0x10;
      if key == 0x1 {
        OpExA1();
      } else if key == 0xE {
        OpEx9E();
      } else {
        OpNull();
      }
    }

    /** `tableF[opcode & 0xFF]`. */
    method TableF()
      requires Valid() && Dispatch.Defined(Snapshot(), Dispatch.TableF(Opcodes.KK(opcode)), opcode)
      modifies this`pc, this`index, this`delayTimer, this`soundTimer, memory, registers
      ensures Snapshot() == Dispatch.Execute(old(Snapshot()), Dispatch.TableF(Opcodes.KK(opcode)), opcode, 0)
    {
      match opcode % 0x100
      case 0x07 => OpFx07();
      case 0x0A => OpFx0A();
      case 0x15 => OpFx15();
      case 0x18 => OpFx18();
      case 0x1E => OpFx1E();
      case 0x29 => OpFx29();
      case 0x33 => OpFx33();
      case 0x55 => OpFx55();
      case 0x65 => OpFx65();
      case _ => OpNull();
    }

    method OpNull()
      requires Valid()
      ensures Snapshot() == Opcodes.OpNull(old(Snapshot()))
    {
    }

    /** CLS. */
    method Op00E0()
      requires Valid()
      modifies video
      ensures Snapshot() == Opcodes.Op00E0(old(Snapshot()))
    {
      forall p | 0 <= p < video.Length {
        video[p] := 0;
      }
    }

    /** RET. */
    method Op00EE()
      requires Valid() && sp < StackSize
      modifies this`pc, this`sp
      ensures Snapshot() == Opcodes.Op00EE(old(Snapshot()))
    {
      pc := stack[sp];
      sp := Sub16(sp, 1);
    }

    /** JP nnn. */
    method Op1nnn()
      requires Valid()
      modifies this`pc
      ensures Snapshot() == Opcodes.Op1nnn(old(Snapshot()), opcode)
    {
      pc := opcode % 0x1000;
    }

    /** CALL nnn. */
    method Op2nnn()
      requires Valid() && sp < StackSize
      modifies this`pc, this`sp, stack
      ensures Snapshot() == Opcodes.Op2nnn(old(Snapshot()), opcode)
    {
      stack[sp] := pc;
      sp := sp + 1;
      pc := opcode % 0x1000;
    }

    /** SE Vx, kk. */
    method Op3xkk()
      requires Valid()
      modifies this`pc
      ensures Snapshot() == Opcodes.Op3xkk(old(Snapshot()), opcode)
    {
      var x, kk := Opcodes.X(opcode), Opcodes.KK(opcode);
      if registers[x] == kk {
        pc := Add16(pc, 2);
      }
    }

    /** SNE Vx, kk. */
    method Op4xkk()
      requires Valid()
      modifies this`pc
      ensures Snapshot() == Opcodes.Op4xkk(old(Snapshot()), opcode)
    {
      var x, kk := Opcodes.X(opcode), Opcodes.KK(opcode);
      if registers[x] != kk {
        pc := Add16(pc, 2);
      }
    }

    /** SE Vx, Vy. */
    method Op5xy0()
      requires Valid()
      modifies this`pc
      ensures Snapshot() == Opcodes.Op5xy0(old(Snapshot()), opcode)
    {
      var x, y := Opcodes.X(opcode), Opcodes.Y(opcode);
      if registers[x] == registers[y] {
        pc := Add16(pc, 2);
      }
    }

    /** LD Vx, kk. */
    method Op6xkk()
      requires Valid()
      modifies registers
      ensures Snapshot() == Opcodes.Op6xkk(old(Snapshot()), opcode)
    {
      registers[Opcodes.X(opcode)] := Opcodes.KK(opcode);
    }

    /** ADD Vx, kk. */
    method Op7xkk()
      requires Valid()
      modifies registers
      ensures Snapshot() == Opcodes.Op7xkk(old(Snapshot()), opcode)
    {
      var x := Opcodes.X(opcode);
      registers[x] := Add8(registers[x], Opcodes.KK(opcode));
    }

    /** LD Vx, Vy. */
    method Op8xy0()
      requires Valid()
      modifies registers
      ensures Snapshot() == Opcodes.Op8xy0(old(Snapshot()), opcode)
    {
      registers[Opcodes.X(opcode)] := registers[Opcodes.Y(opcode)];
    }

    /** OR Vx, Vy. */
    method Op8xy1()
      requires Valid()
      modifies registers
      ensures Snapshot() == Opcodes.Op8xy1(old(Snapshot()), opcode)
    {
      var x, y := Opcodes.X(opcode), Opcodes.Y(opcode);
      registers[x] := Or8(registers[x], registers[y]);
    }

    /** AND Vx, Vy. */
    method Op8xy2()
      requires Valid()
      modifies registers
      ensures Snapshot() == Opcodes.Op8xy2(old(Snapshot()), opcode)
    {
      var x, y := Opcodes.X(opcode), Opcodes.Y(opcode);
      registers[x] := And8(registers[x], registers[y]);
    }

    /** XOR Vx, Vy. */
    method Op8xy3()
      requires Valid()
      modifies registers
      ensures Snapshot() == Opcodes.Op8xy3(old(Snapshot()), opcode)
    {
      var x, y := Opcodes.X(opcode), Opcodes.Y(opcode);
      registers[x] := Xor8(registers[x], registers[y]);
    }

    /** ADD Vx, Vy. */
    method Op8xy4()
      requires Valid()
      modifies registers
      ensures Snapshot() == Opcodes.Op8xy4(old(Snapshot()), opcode)
    {
      var x, y := Opcodes.X(opcode), Opcodes.Y(opcode);
      var sum := registers[x] as int + registers[y];
      if sum > 0xFF {
        registers[VF] := 1;
      } else {
        registers[VF] := 0;
      }
      registers[x] := sum % 0x100;
    }

    /** SUB Vx, Vy. */
    method Op8xy5()
      requires Valid()
      modifies registers
      ensures Snapshot() == Opcodes.Op8xy5(old(Snapshot()), opcode)
    {
      var x, y := Opcodes.X(opcode), Opcodes.Y(opcode);
      if registers[x] > registers[y] {
        registers[VF] := 1;
      } else {
        registers[VF] := 0;
      }
      registers[x] := Sub8(registers[x], registers[y]);
    }

    /** SHR Vx. */
    method Op8xy6()
      requires Valid()
      modifies registers
      ensures Snapshot() == Opcodes.Op8xy6(old(Snapshot()), opcode)
    {
      var x := Opcodes.X(opcode);
      registers[VF] := registers[x] % 2;
      registers[x] := registers[x] / 2;
    }

    /** SUBN Vx, Vy. */
    method Op8xy7()
      requires Valid()
      modifies registers
      ensures Snapshot() == Opcodes.Op8xy7(old(Snapshot()), opcode)
    {
      var x, y := Opcodes.X(opcode), Opcodes.Y(opcode);
      if registers[y] > registers[x] {
        registers[VF] := 1;
      } else {
        registers[VF] := 0;
      }
      registers[x] := Sub8(registers[y], registers[x]);
    }

    /** SHL Vx. */
    method Op8xyE()
      requires Valid()
      modifies registers
      ensures Snapshot() == Opcodes.Op8xyE(old(Snapshot()), opcode)
    {
      var x := Opcodes.X(opcode);
      registers[VF] := registers[x] / 0x80;
      registers[x] := (registers[x] as int * 2) % 0x100;
    }

    /** SNE Vx, Vy. */
    method Op9xy0()
      requires Valid()
      modifies this`pc
      ensures Snapshot() == Opcodes.Op9xy0(old(Snapshot()), opcode)
    {
      var x, y := Opcodes.X(opcode), Opcodes.Y(opcode);
      if registers[x] != registers[y] {
        pc := Add16(pc, 2);
      }
    }

    /** LD I, nnn. */
    method OpAnnn()
      requires Valid()
      modifies this`index
      ensures Snapshot() == Opcodes.OpAnnn(old(Snapshot()), opcode)
    {
      index := opcode % 0x1000;
    }

    /** JP V0, nnn. */
    method OpBnnn()
      requires Valid()
      modifies this`pc
      ensures Snapshot() == Opcodes.OpBnnn(old(Snapshot()), opcode)
    {
      pc := registers[0] + opcode % 0x1000;
    }

    /** RND Vx, kk, with `random` the byte drawn from the generator. */
    method OpCxkk(random: Byte)
      requires Valid()
      modifies registers
      ensures Snapshot() == Opcodes.OpCxkk(old(Snapshot()), opcode, random)
    {
      registers[Opcodes.X(opcode)] := And8(random, Opcodes.KK(opcode));
    }

    /**
     * DRW Vx, Vy, n. After `row` sprite rows the framebuffer is
     * `RowsDrawn(.., row)` and VF says whether `RowsCollide(.., row)`.
     */
    method OpDxyn()
      requires Valid() && Opcodes.DrawDefined(Snapshot(), opcode)
      modifies registers, video
      ensures Snapshot() == Opcodes.OpDxyn(old(Snapshot()), opcode)
    {
      ghost var screen, v := video[..], registers[..];
      var height := opcode % 0x10;
      ghost var rows := if height == 0 then [] else memory[index..index + height];
      var xPos := registers[Opcodes.X(opcode)] % VideoWidth;
      var yPos := registers[Opcodes.Y(opcode)] % VideoHeight;
      registers[VF] := 0;
      var row := 0;
      while row < height
        invariant 0 <= row <= height
        invariant video[..] == RowsDrawn(screen, rows, xPos, yPos, row)
        invariant forall i :: 0 <= i < VF ==> registers[i] == v[i]
        invariant registers[VF] == if RowsCollide(screen, rows, xPos, yPos, row) then 1 else 0
      {
        var spriteByte := memory[index + row];
        DrawRow(rows, xPos, yPos, row, spriteByte);
        row := row + 1;
      }
      Opcodes.DrawByRows(old(Snapshot()), opcode);
      assert registers[..] == v[VF := registers[VF]];
    }

    /**
     * The inner loop of DRW: the eight columns of sprite row `row`, whose
     * byte is `spriteByte`, turned over on the framebuffer; VF is set to 1
     * when one of them was lit and is otherwise left alone.
     */
    method DrawRow(ghost rows: seq<Byte>, xPos: nat, yPos: nat, row: nat, spriteByte: Byte)
      requires Valid() && row < |rows| && rows[row] == spriteByte
      requires (yPos + |rows| - 1) * VideoWidth + xPos + 7 < video.Length
      modifies registers, video
      ensures video[..] == ColumnsDrawn(old(video[..]), rows, xPos, yPos, row, 8)
      ensures forall i :: 0 <= i < VF ==> registers[i] == old(registers[i])
      ensures registers[VF] == if ColumnsCollide(old(video[..]), rows, xPos, yPos, row, 8) then 1 else old(registers[VF])
    {
      ghost var start, saved := video[..], registers[..];
      var col := 0;
      while col < 8
        invariant 0 <= col <= 8
        invariant video[..] == ColumnsDrawn(start, rows, xPos, yPos, row, col)
        invariant forall i :: 0 <= i < VF ==> registers[i] == saved[i]
        invariant registers[VF] == if ColumnsCollide(start, rows, xPos, yPos, row, col) then 1 else saved[VF]
      {
        var spritePixel := And8(spriteByte, ColumnMask[col]);
        var pixel := (yPos + row) * VideoWidth + (xPos + col);
        ColumnStep(start, video[..], rows, xPos, yPos, row, col, pixel, spritePixel);
        ColumnStepCollides(start, video[..], rows, xPos, yPos, row, col, pixel, spritePixel);
        if spritePixel != 0 {
          if video[pixel] == PixelOn {
            registers[VF] := 1;
          }
          video[pixel] := video[pixel] ^ PixelOn;
        }
        col := col + 1;
      }
    }

    /** SKP Vx. */
    method OpEx9E()
      requires Valid() && registers[Opcodes.X(opcode)] < KeyCount
      modifies this`pc
      ensures Snapshot() == Opcodes.OpEx9E(old(Snapshot()), opcode)
    {
      var key := registers[Opcodes.X(opcode)];
      if keypad[key] != 0 {
        pc := Add16(pc, 2);
      }
    }

    /** SKNP Vx. */
    method OpExA1()
      requires Valid() && registers[Opcodes.X(opcode)] < KeyCount
      modifies this`pc
      ensures Snapshot() == Opcodes.OpExA1(old(Snapshot()), opcode)
    {
      var key := registers[Opcodes.X(opcode)];
      if keypad[key] == 0 {
        pc := Add16(pc, 2);
      }
    }

    /** LD Vx, DT. */
    method OpFx07()
      requires Valid()
      modifies registers
      ensures Snapshot() == Opcodes.OpFx07(old(Snapshot()), opcode)
    {
      registers[Opcodes.X(opcode)] := delayTimer;
    }

    /** LD Vx, K: scans the keys from 0 up and stops at the first one down. */
    method OpFx0A()
      requires Valid()
      modifies registers, this`pc
      ensures Snapshot() == Opcodes.OpFx0A(old(Snapshot()), opcode)
    {
      var x := Opcodes.X(opcode);
      var pressed := false;
      var i := 0;
      while i < KeyCount
        invariant 0 <= i <= KeyCount
        invariant !pressed && registers[..] == old(registers[..])
        invariant forall j :: 0 <= j < i ==> keypad[j] == 0
      {
        if keypad[i] != 0 {
          assert Opcodes.LowestPressed(keypad[..], 0) == Opcodes.Some(i);
          registers[x] := i;
          pressed := true;
          break;
        }
        i := i + 1;
      }
      if !pressed {
        assert Opcodes.LowestPressed(keypad[..], 0) == Opcodes.None;
        pc := Sub16(pc, 2);
      }
    }

    /** LD DT, Vx. */
    method OpFx15()
      requires Valid()
      modifies this`delayTimer
      ensures Snapshot() == Opcodes.OpFx15(old(Snapshot()), opcode)
    {
      delayTimer := registers[Opcodes.X(opcode)];
    }

    /** LD ST, Vx. */
    method OpFx18()
      requires Valid()
      modifies this`soundTimer
      ensures Snapshot() == Opcodes.OpFx18(old(Snapshot()), opcode)
    {
      soundTimer := registers[Opcodes.X(opcode)];
    }

    /** ADD I, Vx. */
    method OpFx1E()
      requires Valid()
      modifies this`index
      ensures Snapshot() == Opcodes.OpFx1E(old(Snapshot()), opcode)
    {
      index := Add16(index, registers[Opcodes.X(opcode)]);
    }

    /** LD F, Vx. */
    method OpFx29()
      requires Valid()
      modifies this`index
      ensures Snapshot() == Opcodes.OpFx29(old(Snapshot()), opcode)
    {
      var digit := registers[Opcodes.X(opcode)];
      index := FontStart + 5 * (digit as int);
    }

    /** LD B, Vx: ones first, then tens, then hundreds. */
    method OpFx33()
      requires Valid() && index + 2 < MemorySize
      modifies memory
      ensures Snapshot() == Opcodes.OpFx33(old(Snapshot()), opcode)
    {
      var value := registers[Opcodes.X(opcode)];
      memory[index + 2] := value % 10;
      value := value / 10;
      memory[index + 1] := value % 10;
      value := value / 10;
      memory[index] := value % 10;
    }

    /** LD [I], Vx. */
    method OpFx55()
      requires Valid() && index + Opcodes.X(opcode) < MemorySize
      modifies memory
      ensures Snapshot() == Opcodes.OpFx55(old(Snapshot()), opcode)
    {
      var x := Opcodes.X(opcode);
      var i := 0;
      while i <= x
        invariant 0 <= i <= x + 1
        invariant forall a :: 0 <= a < MemorySize ==>
                    memory[a] == if index <= a < index + i then registers[a - index] else old(memory[a])
      {
        memory[index + i] := registers[i];
        i := i + 1;
      }
      assert memory[..] == Opcodes.OpFx55(old(Snapshot()), opcode).memory;
    }

    /** LD Vx, [I]. */
    method OpFx65()
      requires Valid() && index + Opcodes.X(opcode) < MemorySize
      modifies registers
      ensures Snapshot() == Opcodes.OpFx65(old(Snapshot()), opcode)
    {
      var x := Opcodes.X(opcode);
      var i := 0;
      while i <= x
        invariant 0 <= i <= x + 1
        invariant forall r :: 0 <= r < RegisterCount ==>
                    registers[r] == if r < i then memory[index + r] else old(registers[r])
      {
        registers[i] := memory[index + i];
        i := i + 1;
      }
      assert registers[..] == Opcodes.OpFx65(old(Snapshot()), opcode).v;
    }
  }
}

=== FILE: dispatch.dfy ===
/**
 * Decoding and one fetch/decode/execute/tick cycle.
 *
 * The interpreter keeps a table of sixteen routines indexed by the top
 * nibble of the opcode; four of its entries forward to a second table: the
 * 0, 8 and E families by the low nibble, the F family by the low byte.
 * `Routine` names what those tables hold. A slot no routine was installed in
 * is taken to be `Null`, which does nothing: the interpreter never stores its
 * no-op routine there, so calling through such a slot is undefined.
 */
module Dispatch {
  import opened Bits
  import opened Machine
  import opened Opcodes

  datatype Routine =
    | Null
    | Cls | Ret
    | Jp | Call | SeByte | SneByte | SeReg | LdByte | AddByte
    | LdReg | OrReg | AndReg | XorReg | AddReg | Sub | Shr | Subn | Shl
    | SneReg | LdI | JpV0 | Rnd | Drw
    | Skp | Sknp
    | LdVxDt | LdVxK | LdDtVx | LdStVx | AddI | LdF | LdB | LdMemVx | LdVxMem

  /** `table0`, keyed by the low nibble. */
  function Table0(key: int): Routine
  {
    if key == 0x0 then Cls
    else if key == 0xE then Ret
    else Null
  }

  /** `table8`, keyed by the low nibble. */
  function Table8(key: int): Routine
  {
    match key
    case 0x0 => LdReg
    case 0x1 => OrReg
    case 0x2 => AndReg
    case 0x3 => XorReg
    case 0x4 => AddReg
    case 0x5 => Sub
    case 0x6 => Shr
    case 0x7 => Subn
    case 0xE => Shl
    case _ => Null
  }

  /** `tableE`, keyed by the low nibble: ExA1 sits at 0x1, Ex9E at 0xE. */
  function TableE(key: int): Routine
  {
    if key == 0x1 then Sknp
    else if key == 0xE then Skp
    else Null
  }

  /** `tableF`, keyed by the low byte. */
  function TableF(key: int): Routine
  {
    match key
    case 0x07 => LdVxDt
    case 0x0A => LdVxK
    case 0x15 => LdDtVx
    case 0x18 => LdStVx
    case 0x1E => AddI
    case 0x29 => LdF
    case 0x33 => LdB
    case 0x55 => LdMemVx
    case 0x65 => LdVxMem
    case _ => Null
  }

  /**
   * The routine the two-level table lookup reaches. Only the low nibble (low
   * byte for F) is looked at inside a family, so every `0nn0` clears the
   * screen and every `0nnE` returns.
   */
  function Decode(op: Word): (r: Routine)
    ensures Family(op) == 0x0 && N(op) == 0x0 ==> r == Cls
    ensures Family(op) == 0x0 && N(op) == 0xE ==> r == Ret
  {
    match Family(op)
    case 0x0 => Table0(N(op))
    case 0x1 => Jp
    case 0x2 => Call
    case 0x3 => SeByte
    case 0x4 => SneByte
    case 0x5 => SeReg
    case 0x6 => LdByte
    case 0x7 => AddByte
    case 0x8 => Table8(N(op))
    case 0x9 => SneReg
    case 0xA => LdI
    case 0xB => JpV0
    case 0xC => Rnd
    case 0xD => Drw
    case 0xE => TableE(N(op))
    case _ => TableF(KK(op))
  }

  /** The first-level lookup, one family at a time. */
  lemma DecodeByFamily(op: Word)
    ensures Family(op) == 0x0 ==> Decode(op) == Table0(N(op))
    ensures Family(op) == 0x1 ==> Decode(op) == Jp
    ensures Family(op) == 0x2 ==> Decode(op) == Call
    ensures Family(op) == 0x3 ==> Decode(op) == SeByte
    ensures Family(op) == 0x4 ==> Decode(op) == SneByte
    ensures Family(op) == 0x5 ==> Decode(op) == SeReg
    ensures Family(op) == 0x6 ==> Decode(op) == LdByte
    ensures Family(op) == 0x7 ==> Decode(op) == AddByte
    ensures Family(op) == 0x8 ==> Decode(op) == Table8(N(op))
    ensures Family(op) == 0x9 ==> Decode(op) == SneReg
    ensures Family(op) == 0xA ==> Decode(op) == LdI
    ensures Family(op) == 0xB ==> Decode(op) == JpV0
    ensures Family(op) == 0xC ==> Decode(op) == Rnd
    ensures Family(op) == 0xD ==> Decode(op) == Drw
    ensures Family(op) == 0xE ==> Decode(op) == TableE(N(op))
    ensures Family(op) == 0xF ==> Decode(op) == TableF(KK(op))
  {
  }

  /** What the jump families 1, 2 and B run. */
  lemma JumpRoutes(m: State, op: Word, random: Byte)
    requires WellFormed(m) && Defined(m, Decode(op), op)
    ensures Family(op) == 0x1 ==> Execute(m, Decode(op), op, random) == Op1nnn(m, op)
    ensures Family(op) == 0x2 ==> Execute(m, Decode(op), op, random) == Op2nnn(m, op)
    ensures Family(op) == 0xB ==> Execute(m, Decode(op), op, random) == OpBnnn(m, op)
  {
    DecodeByFamily(op);
  }

  /** What the conditional-skip families 3, 4, 5 and 9 run. */
  lemma SkipRoutes(m: State, op: Word, random: Byte)
    requires WellFormed(m) && Defined(m, Decode(op), op)
    ensures Family(op) == 0x3 ==> Execute(m, Decode(op), op, random) == Op3xkk(m, op)
    ensures Family(op) == 0x4 ==> Execute(m, Decode(op), op, random) == Op4xkk(m, op)
    ensures Family(op) == 0x5 ==> Execute(m, Decode(op), op, random) == Op5xy0(m, op)
    ensures Family(op) == 0x9 ==> Execute(m, Decode(op), op, random) == Op9xy0(m, op)
  {
    DecodeByFamily(op);
  }

  /** What the load families 6, 7, A and C run. */
  lemma LoadRoutes(m: State, op: Word, random: Byte)
    requires WellFormed(m) && Defined(m, Decode(op), op)
    ensures Family(op) == 0x6 ==> Execute(m, Decode(op), op, random) == Op6xkk(m, op)
    ensures Family(op) == 0x7 ==> Execute(m, Decode(op), op, random) == Op7xkk(m, op)
    ensures Family(op) == 0xA ==> Execute(m, Decode(op), op, random) == OpAnnn(m, op)
    ensures Family(op) == 0xC ==> Execute(m, Decode(op), op, random) == OpCxkk(m, op, random)
  {
    DecodeByFamily(op);
  }

  /** The four families that forward to a second table run what that table holds. */
  lemma TableRoutes(m: State, op: Word, random: Byte)
    requires WellFormed(m) && Defined(m, Decode(op), op)
    ensures Family(op) == 0x0 ==> Defined(m, Table0(N(op)), op) && Execute(m, Decode(op), op, random) == Execute(m, Table0(N(op)), op, 0)
    ensures Family(op) == 0x8 ==> Defined(m, Table8(N(op)), op) && Execute(m, Decode(op), op, random) == Execute(m, Table8(N(op)), op, 0)
    ensures Family(op) == 0xE ==> Defined(m, TableE(N(op)), op) && Execute(m, Decode(op), op, random) == Execute(m, TableE(N(op)), op, 0)
    ensures Family(op) == 0xF ==> Defined(m, TableF(KK(op)), op) && Execute(m, Decode(op), op, random) == Execute(m, TableF(KK(op)), op, 0)
  {
    DecodeByFamily(op);
    if Family(op) in {0x0, 0x8, 0xE, 0xF} {
      ExecuteIgnoresRandom(m, Decode(op), op, random, 0);
    }
  }

  /** What the D family runs. */
  lemma DrawRoute(m: State, op: Word, random: Byte)
    requires WellFormed(m) && Defined(m, Decode(op), op) && Family(op) == 0xD
    ensures DrawDefined(m, op) && Execute(m, Decode(op), op, random) == OpDxyn(m, op)
  {
    DecodeByFamily(op);
  }

  /**
   * The opcodes no routine is installed for: inside the 0, 8 and E families
   * the low nibbles the tables leave empty, inside the F family the low
   * bytes; every other family has a single routine.
   */
  lemma DecodeNull(op: Word)
    ensures Decode(op) == Null <==>
      || (Family(op) == 0x0 && N(op) !in {0x0, 0xE})
      || (Family(op) == 0x8 && N(op) !in {0x0, 0x1, 0x2, 0x3, 0x4, 0x5, 0x6, 0x7, 0xE})
      || (Family(op) == 0xE && N(op) !in {0x1, 0xE})
      || (Family(op) == 0xF && KK(op) !in {0x07, 0x0A, 0x15, 0x18, 0x1E, 0x29, 0x33, 0x55, 0x65})
  {
  }

  /**
   * The routine can run without undefined behaviour: the stack slot, the
   * key, the memory cells and the framebuffer cells it indexes exist.
   */
  predicate Defined(m: State, r: Routine, op: Word)
    requires WellFormed(m)
  {
    match r
    case Ret | Call => m.sp < StackSize
    case Drw => DrawDefined(m, op)
    case Skp | Sknp => m.v[X(op)] < KeyCount
    case LdB => m.index + 2 < MemorySize
    case LdMemVx | LdVxMem => m.index + X(op) < MemorySize
    case _ => true
  }

  /** Runs routine `r` on opcode `op`; `random` is the byte RND draws. */
  function Execute(m: State, r: Routine, op: Word, random: Byte): (r': State)
    requires WellFormed(m) && Defined(m, r, op)
    ensures WellFormed(r')
    ensures r'.keypad == m.keypad
  {
    match r
    case Null => OpNull(m)
    case Cls => Op00E0(m)
    case Ret => Op00EE(m)
    case Jp => Op1nnn(m, op)
    case Call => Op2nnn(m, op)
    case SeByte => Op3xkk(m, op)
    case SneByte => Op4xkk(m, op)
    case SeReg => Op5xy0(m, op)
    case LdByte => Op6xkk(m, op)
    case AddByte => Op7xkk(m, op)
    case LdReg => Op8xy0(m, op)
    case OrReg => Op8xy1(m, op)
    case AndReg => Op8xy2(m, op)
    case XorReg => Op8xy3(m, op)
    case AddReg => Op8xy4(m, op)
    case Sub => Op8xy5(m, op)
    case Shr => Op8xy6(m, op)
    case Subn => Op8xy7(m, op)
    case Shl => Op8xyE(m, op)
    case SneReg => Op9xy0(m, op)
    case LdI => OpAnnn(m, op)
    case JpV0 => OpBnnn(m, op)
    case Rnd => OpCxkk(m, op, random)
    case Drw => OpDxyn(m, op)
    case Skp => OpEx9E(m, op)
    case Sknp => OpExA1(m, op)
    case LdVxDt => OpFx07(m, op)
    case LdVxK => OpFx0A(m, op)
    case LdDtVx => OpFx15(m, op)
    case LdStVx => OpFx18(m, op)
    case AddI => OpFx1E(m, op)
    case LdF => OpFx29(m, op)
    case LdB => OpFx33(m, op)
    case LdMemVx => OpFx55(m, op)
    case LdVxMem => OpFx65(m, op)
  }

  /** Where `table8` sends the copy and bitwise nibbles. */
  lemma Table8Routes(m: State, op: Word)
    requires WellFormed(m)
    ensures N(op) == 0x0 ==> Execute(m, Table8(N(op)), op, 0) == Op8xy0(m, op)
    ensures N(op) == 0x1 ==> Execute(m, Table8(N(op)), op, 0) == Op8xy1(m, op)
    ensures N(op) == 0x2 ==> Execute(m, Table8(N(op)), op, 0) == Op8xy2(m, op)
    ensures N(op) == 0x3 ==> Execute(m, Table8(N(op)), op, 0) == Op8xy3(m, op)
  {
  }

  /** Where `table8` sends the arithmetic nibbles and the unassigned ones. */
  lemma Table8ArithmeticRoutes(m: State, op: Word)
    requires WellFormed(m)
    ensures N(op) == 0x4 ==> Execute(m, Table8(N(op)), op, 0) == Op8xy4(m, op)
    ensures N(op) == 0x5 ==> Execute(m, Table8(N(op)), op, 0) == Op8xy5(m, op)
    ensures N(op) == 0x6 ==> Execute(m, Table8(N(op)), op, 0) == Op8xy6(m, op)
    ensures N(op) == 0x7 ==> Execute(m, Table8(N(op)), op, 0) == Op8xy7(m, op)
    ensures N(op) == 0xE ==> Execute(m, Table8(N(op)), op, 0) == Op8xyE(m, op)
    ensures N(op) !in {0x0, 0x1, 0x2, 0x3, 0x4, 0x5, 0x6, 0x7, 0xE} ==> Execute(m, Table8(N(op)), op, 0) == m
  {
  }

  /** LD Vx, K runs the key wait of `OpFx0A`, whatever the random byte. */
  lemma WaitRoute(m: State, op: Word, random: Byte)
    requires WellFormed(m)
    ensures Execute(m, LdVxK, op, random) == OpFx0A(m, op)
  {
  }

  /** Only RND reads the random byte. */
  lemma ExecuteIgnoresRandom(m: State, r: Routine, op: Word, a: Byte, b: Byte)
    requires WellFormed(m) && Defined(m, r, op) && r != Rnd
    ensures Execute(m, r, op, a) == Execute(m, r, op, b)
  {
  }

  /** The opcode at `pc`, most significant byte first: `(memory[pc] << 8) | memory[pc + 1]`. */
  function Fetch(m: State): (op: Word)
    requires WellFormed(m) && m.pc + 1 < MemorySize
    ensures op / 0x100 == m.memory[m.pc] && op % 0x100 == m.memory[m.pc + 1]
  {
    m.memory[m.pc] as int * 0x100 + m.memory[m.pc + 1]
  }

  /** `pc += 2`, done before the routine runs. */
  function Advance(m: State): (r: State)
    ensures r.pc == m.pc + 2 || r.pc == m.pc + 2 - 0x1_0000
    ensures r == m.(pc := r.pc)
  {
    m.(pc := Add16(m.pc, 2))
  }

  /** One timer's countdown step: down by one while nonzero, then it stays at zero. */
  function TimerStep(t: Byte): (r: Byte)
    ensures t > 0 ==> r + 1 == t
    ensures t == 0 ==> r == 0
  {
    if t > 0 then t - 1 else t
  }

  /** Both timers count down once, after the routine has run. */
  function Tick(m: State): State
  {
    m.(delayTimer := TimerStep(m.delayTimer), soundTimer := TimerStep(m.soundTimer))
  }

  /** The instruction at `pc` can be fetched and run without undefined behaviour. */
  predicate CanCycle(m: State)
  {
    && WellFormed(m)
    && m.pc + 1 < MemorySize
    && Defined(Advance(m), Decode(Fetch(m)), Fetch(m))
  }

  /**
   * One `Cycle()`: fetch, `pc += 2`, run the decoded routine, then count each
   * timer down. `random` is the byte RND would draw, unused by other routines.
   */
  function Cycle(m: State, random: Byte): (r: State)
    requires CanCycle(m)
    ensures WellFormed(r)
    ensures r.keypad == m.keypad
    ensures r.delayTimer == TimerStep(if Decode(Fetch(m)) == LdDtVx then m.v[X(Fetch(m))] else m.delayTimer)
    ensures r.soundTimer == TimerStep(if Decode(Fetch(m)) == LdStVx then m.v[X(Fetch(m))] else m.soundTimer)
  {
    var op := Fetch(m);
    Tick(Execute(Advance(m), Decode(op), op, random))
  }
}

=== FILE: draw.dfy ===
/**
 * What `Dxyn` does to the framebuffer.
 *
 * The sprite is `n` row bytes read from memory at I. Sprite column `col` of
 * row `row` lands on framebuffer cell `(yPos + row) * 64 + (xPos + col)`:
 * only the origin (xPos, yPos) wraps, the per-pixel index does not, so a
 * sprite that runs off the right edge continues on the next line.
 *
 * The interpreter visits sprite positions row by row, left to right. A cell's
 * offset from the origin, `row * 64 + col`, identifies the position that
 * reaches it, so "the first k positions" is a plain bound on that offset;
 * `Hit(rows, xPos, yPos, p, k)` is the set of cells turned over once the
 * positions with offset below `k` are done.
 */
module Draw {
  import opened Bits
  import opened Machine

  /** `0x80 >> col` for col = 0..7. */
  const ColumnMask: seq<Byte> := [0x80, 0x40, 0x20, 0x10, 0x08, 0x04, 0x02, 0x01]

  /**
   * Whether column `col` of a sprite row is set: bit 7 - col of the byte,
   * read off its remainder modulo 2^(8 - col). `MaskedBit` shows this is
   * the interpreter's test `spriteByte & (0x80 >> col)`.
   */
  predicate SpriteBit(spriteByte: Byte, col: int)
    requires 0 <= col < 8
  {
    match col
    case 0 => spriteByte >= 0x80
    case 1 => spriteByte % 0x80 >= 0x40
    case 2 => spriteByte % 0x40 >= 0x20
    case 3 => spriteByte % 0x20 >= 0x10
    case 4 => spriteByte % 0x10 >= 0x08
    case 5 => spriteByte % 0x08 >= 0x04
    case 6 => spriteByte % 0x04 >= 0x02
    case _ => spriteByte % 0x02 == 0x01
  }

  /** `spriteByte & (0x80 >> col)` is the column's mask when the bit is set and 0 otherwise. */
  lemma MaskedBit(spriteByte: Byte, col: int)
    requires 0 <= col < 8
    ensures And8(spriteByte, ColumnMask[col]) == if SpriteBit(spriteByte, col) then ColumnMask[col] else 0
  {
    if col < 2 {
      MaskedBits76(spriteByte, col);
    } else if col < 4 {
      MaskedBits54(spriteByte, col);
    } else {
      MaskedBits3210(spriteByte, col);
    }
  }

  lemma MaskedBits76(spriteByte: Byte, col: int)
    requires 0 <= col < 2
    ensures And8(spriteByte, ColumnMask[col]) == if SpriteBit(spriteByte, col) then ColumnMask[col] else 0
  {
    match col {
      case 0 =>
        assert ColumnMask[0] == 0x80;
        MaskIsBit(spriteByte, 7, 0x80);
      case 1 =>
        assert ColumnMask[1] == 0x40;
        MaskIsBit(spriteByte, 6, 0x40);
    }
  }

  lemma MaskedBits54(spriteByte: Byte, col: int)
    requires 2 <= col < 4
    ensures And8(spriteByte, ColumnMask[col]) == if SpriteBit(spriteByte, col) then ColumnMask[col] else 0
  {
    match col {
      case 2 =>
        assert ColumnMask[2] == 0x20;
        MaskIsBit(spriteByte, 5, 0x20);
      case 3 =>
        assert ColumnMask[3] == 0x10;
        MaskIsBit(spriteByte, 4, 0x10);
    }
  }

  lemma MaskedBits3210(spriteByte: Byte, col: int)
    requires 4 <= col < 8
    ensures And8(spriteByte, ColumnMask[col]) == if SpriteBit(spriteByte, col) then ColumnMask[col] else 0
  {
    match col {
      case 4 =>
        assert ColumnMask[4] == 0x08;
        MaskIsBit(spriteByte, 3, 0x08);
      case 5 =>
        assert ColumnMask[5] == 0x04;
        MaskIsBit(spriteByte, 2, 0x04);
      case 6 =>
        assert ColumnMask[6] == 0x02;
        MaskIsBit(spriteByte, 1, 0x02);
      case 7 =>
        assert ColumnMask[7] == 0x01;
        MaskIsBit(spriteByte, 0, 0x01);
    }
  }

  /** The framebuffer cell sprite position (row, col) lands on. */
  function PixelIndex(xPos: int, yPos: int, row: int, col: int): int
  {
    (yPos + row) * VideoWidth + (xPos + col)
  }

  /** Cell `p` is the target of a set sprite bit whose offset is below `k`. */
  predicate Hit(rows: seq<Byte>, xPos: int, yPos: int, p: int, k: int)
  {
    var off := p - (yPos * VideoWidth + xPos);
    && 0 <= off < k
    && off % VideoWidth < 8
    && off / VideoWidth < |rows|
    && SpriteBit(rows[off / VideoWidth], off % VideoWidth)
  }

  /** The offset bound past every sprite position. */
  function Full(rows: seq<Byte>): int
  {
    |rows| * VideoWidth
  }

  /** The framebuffer with every cell hit below `k` turned over. */
  function Flipped(video: seq<Pixel>, rows: seq<Byte>, xPos: int, yPos: int, k: int): (r: seq<Pixel>)
    ensures |r| == |video|
  {
    seq(|video|, p requires 0 <= p < |video| =>
      if Hit(rows, xPos, yPos, p, k) then video[p] ^ PixelOn else video[p])
  }

  /** Some cell hit below `k` was lit beforehand. */
  predicate Collides(video: seq<Pixel>, rows: seq<Byte>, xPos: int, yPos: int, k: int)
  {
    exists p :: 0 <= p < |video| && Hit(rows, xPos, yPos, p, k) && video[p] == PixelOn
  }

  /** The offset row * 64 + col names row `row` and column `col`. */
  lemma SplitOffset(row: int, col: int)
    requires 0 <= col < VideoWidth
    ensures (row * VideoWidth + col) / VideoWidth == row
    ensures (row * VideoWidth + col) % VideoWidth == col
  {
  }

  /** A set sprite bit hits its own cell, at every bound past its offset. */
  lemma HitAt(rows: seq<Byte>, xPos: int, yPos: int, row: nat, col: nat, k: int)
    requires row < |rows| && col < 8
    ensures Hit(rows, xPos, yPos, PixelIndex(xPos, yPos, row, col), k)
        == (row * VideoWidth + col < k && SpriteBit(rows[row], col))
  {
    assert PixelIndex(xPos, yPos, row, col) - (yPos * VideoWidth + xPos) == row * VideoWidth + col;
    SplitOffset(row, col);
  }

  /** A hit cell is the target of the set sprite bit its offset names. */
  lemma HitIsTarget(rows: seq<Byte>, xPos: int, yPos: int, p: int, k: int)
    requires Hit(rows, xPos, yPos, p, k)
    ensures var off := p - (yPos * VideoWidth + xPos);
            && 0 <= off / VideoWidth < |rows| && 0 <= off % VideoWidth < 8
            && p == PixelIndex(xPos, yPos, off / VideoWidth, off % VideoWidth)
            && SpriteBit(rows[off / VideoWidth], off % VideoWidth)
  {
  }

  /** Nothing is hit below offset 0. */
  lemma Nothing(video: seq<Pixel>, rows: seq<Byte>, xPos: int, yPos: int)
    ensures Flipped(video, rows, xPos, yPos, 0) == video
    ensures !Collides(video, rows, xPos, yPos, 0)
  {
  }

  /** Each set sprite bit turns over exactly its target cell. */
  lemma DrawFlipsTargets(video: seq<Pixel>, rows: seq<Byte>, xPos: int, yPos: int, row: nat, col: nat)
    requires row < |rows| && col < 8 && SpriteBit(rows[row], col)
    requires 0 <= PixelIndex(xPos, yPos, row, col) < |video|
    ensures Flipped(video, rows, xPos, yPos, Full(rows))[PixelIndex(xPos, yPos, row, col)]
        == video[PixelIndex(xPos, yPos, row, col)] ^ PixelOn
  {
    HitAt(rows, xPos, yPos, row, col, Full(rows));
  }

  /** A cell that no set sprite bit targets keeps its value. */
  lemma DrawKeepsOthers(video: seq<Pixel>, rows: seq<Byte>, xPos: int, yPos: int, p: int)
    requires 0 <= p < |video|
    requires forall row, col :: 0 <= row < |rows| && 0 <= col < 8 && SpriteBit(rows[row], col)
               ==> PixelIndex(xPos, yPos, row, col) != p
    ensures Flipped(video, rows, xPos, yPos, Full(rows))[p] == video[p]
  {
    if Hit(rows, xPos, yPos, p, Full(rows)) {
      HitIsTarget(rows, xPos, yPos, p, Full(rows));
    }
  }

  /** Some set sprite bit lands on a lit cell. */
  predicate SpriteCollides(video: seq<Pixel>, rows: seq<Byte>, xPos: int, yPos: int)
  {
    exists row, col :: 0 <= row < |rows| && 0 <= col < 8 && SpriteBit(rows[row], col)
      && 0 <= PixelIndex(xPos, yPos, row, col) < |video|
      && video[PixelIndex(xPos, yPos, row, col)] == PixelOn
  }

  /** A collision found cell by cell is a set sprite bit on a lit cell. */
  lemma CollisionHasSpriteBit(video: seq<Pixel>, rows: seq<Byte>, xPos: int, yPos: int)
    requires Collides(video, rows, xPos, yPos, Full(rows))
    ensures SpriteCollides(video, rows, xPos, yPos)
  {
    var p :| 0 <= p < |video| && Hit(rows, xPos, yPos, p, Full(rows)) && video[p] == PixelOn;
    HitIsTarget(rows, xPos, yPos, p, Full(rows));
    var off := p - (yPos * VideoWidth + xPos);
    var row, col := off / VideoWidth, off % VideoWidth;
    assert 0 <= row < |rows| && 0 <= col < 8 && SpriteBit(rows[row], col)
      && 0 <= PixelIndex(xPos, yPos, row, col) < |video|
      && video[PixelIndex(xPos, yPos, row, col)] == PixelOn;
  }

  /** A set sprite bit on a lit cell is a collision found cell by cell. */
  lemma SpriteBitCollides(video: seq<Pixel>, rows: seq<Byte>, xPos: int, yPos: int)
    requires SpriteCollides(video, rows, xPos, yPos)
    ensures Collides(video, rows, xPos, yPos, Full(rows))
  {
    var row, col :| 0 <= row < |rows| && 0 <= col < 8 && SpriteBit(rows[row], col)
      && 0 <= PixelIndex(xPos, yPos, row, col) < |video|
      && video[PixelIndex(xPos, yPos, row, col)] == PixelOn;
    HitAt(rows, xPos, yPos, row, col, Full(rows));
    var p := PixelIndex(xPos, yPos, row, col);
    assert 0 <= p < |video| && Hit(rows, xPos, yPos, p, Full(rows)) && video[p] == PixelOn;
  }

  /** Each set sprite bit turned its target cell, which lies in the framebuffer, over. */
  predicate FlipsTargets(before: seq<Pixel>, after: seq<Pixel>, rows: seq<Byte>, xPos: int, yPos: int)
    requires |after| == |before|
  {
    forall row, col :: 0 <= row < |rows| && 0 <= col < 8 && SpriteBit(rows[row], col)
      ==> 0 <= PixelIndex(xPos, yPos, row, col) < |before|
          && after[PixelIndex(xPos, yPos, row, col)] == before[PixelIndex(xPos, yPos, row, col)] ^ PixelOn
  }

  /** Cells that no set sprite bit targets kept their value. */
  predicate KeepsOthers(before: seq<Pixel>, after: seq<Pixel>, rows: seq<Byte>, xPos: int, yPos: int)
    requires |after| == |before|
  {
    forall p :: 0 <= p < |before|
      && (forall row, col :: 0 <= row < |rows| && 0 <= col < 8 && SpriteBit(rows[row], col)
            ==> PixelIndex(xPos, yPos, row, col) != p)
      ==> after[p] == before[p]
  }

  /** The whole draw in sprite terms, for a sprite whose every target cell lies in the framebuffer. */
  lemma DrawSpec(video: seq<Pixel>, rows: seq<Byte>, xPos: nat, yPos: nat)
    requires |rows| == 0 || (yPos + |rows| - 1) * VideoWidth + xPos + 7 < |video|
    ensures FlipsTargets(video, Flipped(video, rows, xPos, yPos, Full(rows)), rows, xPos, yPos)
    ensures KeepsOthers(video, Flipped(video, rows, xPos, yPos, Full(rows)), rows, xPos, yPos)
    ensures Collides(video, rows, xPos, yPos, Full(rows)) <==> SpriteCollides(video, rows, xPos, yPos)
  {
    forall row, col | 0 <= row < |rows| && 0 <= col < 8 && SpriteBit(rows[row], col)
      ensures 0 <= PixelIndex(xPos, yPos, row, col) < |video|
      ensures Flipped(video, rows, xPos, yPos, Full(rows))[PixelIndex(xPos, yPos, row, col)]
              == video[PixelIndex(xPos, yPos, row, col)] ^ PixelOn
    {
      DrawFlipsTargets(video, rows, xPos, yPos, row, col);
    }
    forall p | 0 <= p < |video|
      && (forall row, col :: 0 <= row < |rows| && 0 <= col < 8 && SpriteBit(rows[row], col)
            ==> PixelIndex(xPos, yPos, row, col) != p)
      ensures Flipped(video, rows, xPos, yPos, Full(rows))[p] == video[p]
    {
      DrawKeepsOthers(video, rows, xPos, yPos, p);
    }
    if Collides(video, rows, xPos, yPos, Full(rows)) {
      CollisionHasSpriteBit(video, rows, xPos, yPos);
    }
    if SpriteCollides(video, rows, xPos, yPos) {
      SpriteBitCollides(video, rows, xPos, yPos);
    }
  }

  /** Drawing the same sprite twice at the same place restores every cell. */
  lemma FlipTwice(video: seq<Pixel>, rows: seq<Byte>, xPos: int, yPos: int, k: int)
    ensures Flipped(Flipped(video, rows, xPos, yPos, k), rows, xPos, yPos, k) == video
  {
    var once := Flipped(video, rows, xPos, yPos, k);
    var twice := Flipped(once, rows, xPos, yPos, k);
    forall p | 0 <= p < |video|
      ensures twice[p] == video[p]
    {
      if Hit(rows, xPos, yPos, p, k) {
        assert twice[p] == (video[p] ^ PixelOn) ^ PixelOn;
      }
    }
  }

  /** The second of two identical draws collides exactly where the first turned a dark cell on. */
  lemma CollidesAfterFlip(video: seq<Pixel>, rows: seq<Byte>, xPos: int, yPos: int, k: int)
    ensures Collides(Flipped(video, rows, xPos, yPos, k), rows, xPos, yPos, k)
        <==> exists p :: 0 <= p < |video| && Hit(rows, xPos, yPos, p, k) && video[p] == 0
  {
    var once := Flipped(video, rows, xPos, yPos, k);
    forall p | 0 <= p < |video| && Hit(rows, xPos, yPos, p, k)
      ensures (once[p] == PixelOn) == (video[p] == 0)
    {
      assert once[p] == video[p] ^ PixelOn;
    }
  }

  /**
   * One pass of the interpreter's inner loop, seen on the framebuffer
   * `drawn` it works on: the column's bit is tested with the mask, and
   * `pixel` is turned over exactly when it is set.
   */
  lemma ColumnStep(screen: seq<Pixel>, drawn: seq<Pixel>, rows: seq<Byte>, xPos: nat, yPos: nat, row: nat, col: nat,
                   pixel: int, spritePixel: Byte)
    requires (yPos + |rows| - 1) * VideoWidth + xPos + 7 < |screen|
    requires row < |rows| && col < 8 && drawn == ColumnsDrawn(screen, rows, xPos, yPos, row, col)
    requires pixel == (yPos + row) * VideoWidth + (xPos + col) && spritePixel == And8(rows[row], ColumnMask[col])
    ensures 0 <= pixel < |drawn|
    ensures ColumnsDrawn(screen, rows, xPos, yPos, row, col + 1)
         == if spritePixel != 0 then drawn[pixel := drawn[pixel] ^ PixelOn] else drawn
  {
    TargetInRange(screen, rows, xPos, yPos, row, col);
    assert pixel == PixelIndex(xPos, yPos, row, col);
    MaskedBit(rows[row], col);
    ColumnDrawn(screen, rows, xPos, yPos, row, col, col + 1);
  }

  /**
   * One pass of the interpreter's inner loop, seen on the collision flag:
   * it is raised exactly when the column's bit is set over a lit cell.
   */
  lemma ColumnStepCollides(screen: seq<Pixel>, drawn: seq<Pixel>, rows: seq<Byte>, xPos: nat, yPos: nat, row: nat, col: nat,
                           pixel: int, spritePixel: Byte)
    requires (yPos + |rows| - 1) * VideoWidth + xPos + 7 < |screen|
    requires row < |rows| && col < 8 && drawn == ColumnsDrawn(screen, rows, xPos, yPos, row, col)
    requires pixel == (yPos + row) * VideoWidth + (xPos + col) && spritePixel == And8(rows[row], ColumnMask[col])
    ensures 0 <= pixel < |drawn|
    ensures ColumnsCollide(screen, rows, xPos, yPos, row, col + 1)
         == (ColumnsCollide(screen, rows, xPos, yPos, row, col) || (spritePixel != 0 && drawn[pixel] == PixelOn))
  {
    TargetInRange(screen, rows, xPos, yPos, row, col);
    assert pixel == PixelIndex(xPos, yPos, row, col);
    MaskedBit(rows[row], col);
    ColumnUntouched(screen, rows, xPos, yPos, row, col);
    ColumnCollides(screen, rows, xPos, yPos, row, col);
  }

  /** Every target cell of a sprite that fits lies in the framebuffer. */
  lemma TargetInRange(video: seq<Pixel>, rows: seq<Byte>, xPos: nat, yPos: nat, row: nat, col: nat)
    requires (yPos + |rows| - 1) * VideoWidth + xPos + 7 < |video|
    requires row < |rows| && col < 8
    ensures 0 <= PixelIndex(xPos, yPos, row, col) < |video|
  {
    assert (yPos + row) * VideoWidth <= (yPos + |rows| - 1) * VideoWidth;
  }

  /**
   * The interpreter's inner loop over sprite row `row`, started on `screen`:
   * its first `col` columns turn the cells of their set bits over. The
   * columns of one row land on consecutive cells from the row's first one.
   */
  function ColumnsDrawn(screen: seq<Pixel>, rows: seq<Byte>, xPos: int, yPos: int, row: nat, col: nat): (r: seq<Pixel>)
    requires row < |rows| && col <= 8
    ensures |r| == |screen|
  {
    seq(|screen|, p requires 0 <= p < |screen| =>
      var c := p - PixelIndex(xPos, yPos, row, 0);
      if 0 <= c < col && SpriteBit(rows[row], c) then screen[p] ^ PixelOn else screen[p])
  }

  /** One of the first `col` columns of row `row` has its bit set over a cell lit in `screen`. */
  predicate ColumnsCollide(screen: seq<Pixel>, rows: seq<Byte>, xPos: int, yPos: int, row: nat, col: nat)
    requires row < |rows| && col <= 8
  {
    exists c :: 0 <= c < col && SpriteBit(rows[row], c)
      && 0 <= PixelIndex(xPos, yPos, row, c) < |screen| && screen[PixelIndex(xPos, yPos, row, c)] == PixelOn
  }

  /** The cell column `col` reads has not been touched by the columns before it. */
  lemma ColumnUntouched(screen: seq<Pixel>, rows: seq<Byte>, xPos: int, yPos: int, row: nat, col: nat)
    requires row < |rows| && col < 8
    requires 0 <= PixelIndex(xPos, yPos, row, col) < |screen|
    ensures ColumnsDrawn(screen, rows, xPos, yPos, row, col)[PixelIndex(xPos, yPos, row, col)]
         == screen[PixelIndex(xPos, yPos, row, col)]
  {
    assert PixelIndex(xPos, yPos, row, col) - PixelIndex(xPos, yPos, row, 0) == col;
  }

  /** Column `col` turns its cell over when its bit is set, and changes nothing else. */
  lemma ColumnDrawn(screen: seq<Pixel>, rows: seq<Byte>, xPos: int, yPos: int, row: nat, col: nat, next: nat)
    requires row < |rows| && col < 8 && next == col + 1
    requires 0 <= PixelIndex(xPos, yPos, row, col) < |screen|
    ensures ColumnsDrawn(screen, rows, xPos, yPos, row, next)
         == if SpriteBit(rows[row], col)
            then ColumnsDrawn(screen, rows, xPos, yPos, row, col)[PixelIndex(xPos, yPos, row, col) :=
                   ColumnsDrawn(screen, rows, xPos, yPos, row, col)[PixelIndex(xPos, yPos, row, col)] ^ PixelOn]
            else ColumnsDrawn(screen, rows, xPos, yPos, row, col)
  {
    var idx, first := PixelIndex(xPos, yPos, row, col), PixelIndex(xPos, yPos, row, 0);
    var before := ColumnsDrawn(screen, rows, xPos, yPos, row, col);
    var after := ColumnsDrawn(screen, rows, xPos, yPos, row, next);
    assert idx - first == col;
    forall p | 0 <= p < |screen|
      ensures after[p] == if p == idx && SpriteBit(rows[row], col) then before[p] ^ PixelOn else before[p]
    {
      if p != idx {
        assert p - first != col;
      }
    }
  }

  /** Column `col` counts as a collision when its bit is set over a lit cell. */
  lemma ColumnCollides(screen: seq<Pixel>, rows: seq<Byte>, xPos: int, yPos: int, row: nat, col: nat)
    requires row < |rows| && col < 8
    requires 0 <= PixelIndex(xPos, yPos, row, col) < |screen|
    ensures ColumnsCollide(screen, rows, xPos, yPos, row, col + 1)
         == (|| ColumnsCollide(screen, rows, xPos, yPos, row, col)
             || (SpriteBit(rows[row], col) && screen[PixelIndex(xPos, yPos, row, col)] == PixelOn))
  {
    if ColumnsCollide(screen, rows, xPos, yPos, row, col + 1) {
      var c :| 0 <= c < col + 1 && SpriteBit(rows[row], c)
        && 0 <= PixelIndex(xPos, yPos, row, c) < |screen| && screen[PixelIndex(xPos, yPos, row, c)] == PixelOn;
      if c < col {
        assert ColumnsCollide(screen, rows, xPos, yPos, row, col);
      }
    }
  }

  /** The framebuffer once the first `n` sprite rows are drawn, row after row. */
  function RowsDrawn(video: seq<Pixel>, rows: seq<Byte>, xPos: int, yPos: int, n: nat): (r: seq<Pixel>)
    requires n <= |rows|
    ensures |r| == |video|
  {
    if n == 0 then video
    else ColumnsDrawn(RowsDrawn(video, rows, xPos, yPos, n - 1), rows, xPos, yPos, n - 1, 8)
  }

  /** The collision flag once the first `n` sprite rows are drawn. */
  predicate RowsCollide(video: seq<Pixel>, rows: seq<Byte>, xPos: int, yPos: int, n: nat)
    requires n <= |rows|
  {
    && n > 0
    && (|| RowsCollide(video, rows, xPos, yPos, n - 1)
        || ColumnsCollide(RowsDrawn(video, rows, xPos, yPos, n - 1), rows, xPos, yPos, n - 1, 8))
  }

  /** The cells hit below the start of row `row + 1` are those hit below row `row` and the set bits of row `row`. */
  lemma HitRow(rows: seq<Byte>, xPos: int, yPos: int, p: int, row: nat)
    requires row < |rows|
    ensures Hit(rows, xPos, yPos, p, (row + 1) * VideoWidth)
        == (|| Hit(rows, xPos, yPos, p, row * VideoWidth)
            || (var c := p - PixelIndex(xPos, yPos, row, 0); 0 <= c < 8 && SpriteBit(rows[row], c)))
    ensures Hit(rows, xPos, yPos, p, row * VideoWidth) ==> p < PixelIndex(xPos, yPos, row, 0)
  {
    var off := p - (yPos * VideoWidth + xPos);
    assert p - PixelIndex(xPos, yPos, row, 0) == off - row * VideoWidth;
    if row * VideoWidth <= off < (row + 1) * VideoWidth {
      SplitOffset(row, off - row * VideoWidth);
    }
  }

  /** Drawing row `row` on the framebuffer of the rows before it gives `Flipped` at the start of row `next`, the one after. */
  lemma RowFlipped(video: seq<Pixel>, rows: seq<Byte>, xPos: int, yPos: int, row: nat, next: nat)
    requires row < |rows| && next == row + 1
    ensures ColumnsDrawn(Flipped(video, rows, xPos, yPos, row * VideoWidth), rows, xPos, yPos, row, 8)
         == Flipped(video, rows, xPos, yPos, next * VideoWidth)
  {
    var drawn := ColumnsDrawn(Flipped(video, rows, xPos, yPos, row * VideoWidth), rows, xPos, yPos, row, 8);
    var after := Flipped(video, rows, xPos, yPos, next * VideoWidth);
    forall p | 0 <= p < |video|
      ensures drawn[p] == after[p]
    {
      HitRow(rows, xPos, yPos, p, row);
    }
  }

  /** The collision flag after row `row` is the one before it, or a lit pixel under one of that row's bits. */
  lemma RowCollides(video: seq<Pixel>, rows: seq<Byte>, xPos: int, yPos: int, row: nat, next: nat)
    requires row < |rows| && next == row + 1
    ensures (|| Collides(video, rows, xPos, yPos, row * VideoWidth)
             || ColumnsCollide(Flipped(video, rows, xPos, yPos, row * VideoWidth), rows, xPos, yPos, row, 8))
         == Collides(video, rows, xPos, yPos, next * VideoWidth)
  {
    var before := Flipped(video, rows, xPos, yPos, row * VideoWidth);
    if Collides(video, rows, xPos, yPos, next * VideoWidth) {
      var p :| 0 <= p < |video| && Hit(rows, xPos, yPos, p, next * VideoWidth) && video[p] == PixelOn;
      HitRow(rows, xPos, yPos, p, row);
      if !Hit(rows, xPos, yPos, p, row * VideoWidth) {
        var c := p - PixelIndex(xPos, yPos, row, 0);
        assert p == PixelIndex(xPos, yPos, row, c);
        assert ColumnsCollide(before, rows, xPos, yPos, row, 8);
      }
    }
    if Collides(video, rows, xPos, yPos, row * VideoWidth) {
      var p :| 0 <= p < |video| && Hit(rows, xPos, yPos, p, row * VideoWidth) && video[p] == PixelOn;
      HitRow(rows, xPos, yPos, p, row);
    }
    if ColumnsCollide(before, rows, xPos, yPos, row, 8) {
      var c :| 0 <= c < 8 && SpriteBit(rows[row], c)
        && 0 <= PixelIndex(xPos, yPos, row, c) < |before| && before[PixelIndex(xPos, yPos, row, c)] == PixelOn;
      var p := PixelIndex(xPos, yPos, row, c);
      HitRow(rows, xPos, yPos, p, row);
      assert p - PixelIndex(xPos, yPos, row, 0) == c;
      assert Hit(rows, xPos, yPos, p, next * VideoWidth);
    }
  }

  /**
   * The interpreter's loop computes the sprite-level description: after `n`
   * rows its framebuffer is `Flipped` at offset n * 64.
   */
  lemma {:induction false} RowsFlipped(video: seq<Pixel>, rows: seq<Byte>, xPos: int, yPos: int, n: nat)
    requires n <= |rows|
    ensures RowsDrawn(video, rows, xPos, yPos, n) == Flipped(video, rows, xPos, yPos, n * VideoWidth)
  {
    if n == 0 {
      Nothing(video, rows, xPos, yPos);
    } else {
      RowsFlipped(video, rows, xPos, yPos, n - 1);
      RowFlipped(video, rows, xPos, yPos, n - 1, n);
    }
  }

  /** After `n` rows the loop's collision flag is `Collides` at offset n * 64. */
  lemma {:induction false} RowsCollides(video: seq<Pixel>, rows: seq<Byte>, xPos: int, yPos: int, n: nat)
    requires n <= |rows|
    ensures RowsCollide(video, rows, xPos, yPos, n) == Collides(video, rows, xPos, yPos, n * VideoWidth)
  {
    if n == 0 {
      Nothing(video, rows, xPos, yPos);
    } else {
      RowsCollides(video, rows, xPos, yPos, n - 1);
      RowsFlipped(video, rows, xPos, yPos, n - 1);
      RowCollides(video, rows, xPos, yPos, n - 1, n);
    }
  }
}

=== FILE: machine.dfy ===
/**
 * The state of one CHIP-8 machine as a value, its fixed dimensions, the
 * built-in font, the state right after construction and the ROM copy.
 */
module Machine {
  import opened Bits

  const MemorySize := 4096
  const RegisterCount := 16
  const StackSize := 16
  const KeyCount := 16
  const VideoWidth := 64
  const VideoHeight := 32
  const PixelCount := VideoWidth * VideoHeight

  /** Programs are loaded, and execution starts, here. */
  const StartAddress := 0x200
  /** The glyph font sits at 0x50..0x9F. */
  const FontStart := 0x50
  const FontSize := 80
  /** The flag register VF. */
  const VF := 0xF

  /** One framebuffer cell (`uint32_t`): off is 0, on is all ones. */
  type Pixel = bv32
  const PixelOn: Pixel := 0xFFFF_FFFF

  /** Five rows of four pixels for each hexadecimal digit 0..F. */
  const Font: seq<Byte> := [
    0xF0, 0x90, 0x90, 0x90, 0xF0, // 0
    0x20, 0x60, 0x20, 0x20, 0x70, // 1
    0xF0, 0x10, 0xF0, 0x80, 0xF0, // 2
    0xF0, 0x10, 0xF0, 0x10, 0xF0, // 3
    0x90, 0x90, 0xF0, 0x10, 0x10, // 4
    0xF0, 0x80, 0xF0, 0x10, 0xF0, // 5
    0xF0, 0x80, 0xF0, 0x90, 0xF0, // 6
    0xF0, 0x10, 0x20, 0x40, 0x40, // 7
    0xF0, 0x90, 0xF0, 0x90, 0xF0, // 8
    0xF0, 0x90, 0xF0, 0x10, 0xF0, // 9
    0xF0, 0x90, 0xF0, 0x90, 0x90, // A
    0xE0, 0x90, 0xE0, 0x90, 0xE0, // B
    0xF0, 0x80, 0x80, 0x80, 0xF0, // C
    0xE0, 0x90, 0x90, 0x90, 0xE0, // D
    0xF0, 0x80, 0xF0, 0x80, 0xF0, // E
    0xF0, 0x80, 0xF0, 0x80, 0x80  // F
  ]

  /**
   * Everything an instruction can read or write. `v` is the register file
   * V0..VF, `index` is I; `keypad` holds one byte per key, nonzero when the
   * key is down.
   */
  datatype State = State(
    memory: seq<Byte>,
    v: seq<Byte>,
    index: Word,
    pc: Word,
    sp: Word,
    stack: seq<Word>,
    delayTimer: Byte,
    soundTimer: Byte,
    video: seq<Pixel>,
    keypad: seq<Byte>)

  /** The fixed sizes of the machine's arrays. */
  predicate WellFormed(m: State)
  {
    && |m.memory| == MemorySize
    && |m.v| == RegisterCount
    && |m.stack| == StackSize
    && |m.video| == PixelCount
    && |m.keypad| == KeyCount
  }

  /** `m` and `m'` hold the same registers except, possibly, those in `changed`. */
  predicate RegistersAgreeExcept(m: State, m': State, changed: set<int>)
    requires WellFormed(m) && WellFormed(m')
  {
    forall i :: 0 <= i < RegisterCount && i !in changed ==> m'.v[i] == m.v[i]
  }

  /** Memory after construction: zero except for the font. */
  function InitialMemory(): (mem: seq<Byte>)
    ensures |mem| == MemorySize
    ensures mem[FontStart..FontStart + FontSize] == Font
    ensures forall a :: 0 <= a < MemorySize && !(FontStart <= a < FontStart + FontSize) ==> mem[a] == 0
  {
    seq(MemorySize, a => if FontStart <= a < FontStart + FontSize then Font[a - FontStart] else 0)
  }

  /** The machine right after construction. */
  function Initial(): (m: State)
    ensures WellFormed(m)
    ensures m.pc == StartAddress && m.sp == 0 && m.index == 0
    ensures m.memory == InitialMemory()
    ensures m.memory[FontStart..FontStart + FontSize] == Font
    ensures forall i :: 0 <= i < RegisterCount ==> m.v[i] == 0
    ensures forall i :: 0 <= i < StackSize ==> m.stack[i] == 0
    ensures forall p :: 0 <= p < PixelCount ==> m.video[p] == 0
    ensures forall k :: 0 <= k < KeyCount ==> m.keypad[k] == 0
    ensures m.delayTimer == 0 && m.soundTimer == 0
  {
    State(
      memory := InitialMemory(),
      v := seq(RegisterCount, _ => 0),
      index := 0,
      pc := StartAddress,
      sp := 0,
      stack := seq(StackSize, _ => 0),
      delayTimer := 0,
      soundTimer := 0,
      video := seq(PixelCount, _ => 0),
      keypad := seq(KeyCount, _ => 0))
  }

  /**
   * Copies a ROM image into memory from the start address on. The source does
   * not check the size: a longer image writes past the end of memory.
   */
  function Load(m: State, rom: seq<Byte>): (r: State)
    requires WellFormed(m)
    requires |rom| <= MemorySize - StartAddress
    ensures WellFormed(r)
    ensures r.memory[StartAddress..StartAddress + |rom|] == rom
    ensures forall a :: 0 <= a < MemorySize && !(StartAddress <= a < StartAddress + |rom|) ==> r.memory[a] == m.memory[a]
    ensures r.(memory := m.memory) == m
  {
    m.(memory := m.memory[..StartAddress] + rom + m.memory[StartAddress + |rom|..])
  }

  /** Loading a program never touches the font. */
  lemma LoadKeepsFont(m: State, rom: seq<Byte>)
    requires WellFormed(m) && m.memory[FontStart..FontStart + FontSize] == Font
    requires |rom| <= MemorySize - StartAddress
    ensures Load(m, rom).memory[FontStart..FontStart + FontSize] == Font
  {
    var r := Load(m, rom);
    assert forall a :: FontStart <= a < FontStart + FontSize ==> r.memory[a] == m.memory[a];
  }
}

=== FILE: opcodes.dfy ===
/**
 * What each of the 34 instruction routines, and the no-op, does to the
 * machine, as a function of the state and the 16-bit opcode.
 *
 * Every routine runs after the fetch has already added 2 to `pc`, so "skip"
 * means one more `+ 2`. Register writes happen in the order the routines make
 * them: where a routine writes the flag VF before its destination, a
 * destination or operand that is VF sees the flag.
 */
module Opcodes {
  import opened Bits
  import opened Machine
  import opened Draw

  datatype Option<T> = None | Some(value: T)

  /** The instruction family, `(opcode & 0xF000) >> 12`. */
  function Family(op: Word): (f: int)
    ensures 0 <= f < 0x10
  {
    op / 0x1000
  }

  /** Register number x, `(opcode & 0x0F00) >> 8`. */
  function X(op: Word): (x: int)
    ensures 0 <= x < RegisterCount
  {
    (op / 0x100) % 0x10
  }

  /** Register number y, `(opcode & 0x00F0) >> 4`. */
  function Y(op: Word): (y: int)
    ensures 0 <= y < RegisterCount
  {
    (op / 0x10) % 0x10
  }

  /** The low nibble, `opcode & 0x000F`. */
  function N(op: Word): (n: int)
    ensures 0 <= n < 0x10
  {
    op % 0x10
  }

  /** The low byte, `opcode & 0x00FF`. */
  function KK(op: Word): Byte
  {
    op % 0x100
  }

  /** The address, `opcode & 0x0FFF`. */
  function NNN(op: Word): (a: int)
    ensures 0 <= a < 0x1000
  {
    op % 0x1000
  }

  /** The fields taken apart put the opcode back together. */
  lemma OperandsReassemble(op: Word)
    ensures op == Family(op) * 0x1000 + X(op) * 0x100 + Y(op) * 0x10 + N(op)
    ensures KK(op) == Y(op) * 0x10 + N(op)
    ensures NNN(op) == X(op) * 0x100 + KK(op)
  {
  }

  function SetV(m: State, i: int, b: Byte): State
    requires WellFormed(m) && 0 <= i < RegisterCount
  {
    m.(v := m.v[i := b])
  }

  /** A routine that does nothing. */
  function OpNull(m: State): (r: State)
    ensures r == m
  {
    m
  }

  /** CLS: every framebuffer cell goes dark. */
  function Op00E0(m: State): (r: State)
    requires WellFormed(m)
    ensures WellFormed(r)
    ensures forall p :: 0 <= p < PixelCount ==> r.video[p] == 0
    ensures r == m.(video := r.video)
  {
    m.(video := seq(PixelCount, _ => 0))
  }

  /**
   * RET: `pc = stack[sp--]`. It reads the slot at `sp` itself, then lowers
   * `sp`, so it does not read back the slot CALL wrote, which is at `sp - 1`.
   */
  function Op00EE(m: State): (r: State)
    requires WellFormed(m) && m.sp < StackSize
    ensures WellFormed(r)
    ensures r.pc == m.stack[m.sp]
    ensures r.sp == m.sp - 1 || (m.sp == 0 && r.sp == 0xFFFF)
    ensures r == m.(pc := r.pc, sp := r.sp)
  {
    m.(pc := m.stack[m.sp], sp := Sub16(m.sp, 1))
  }

  /** JP nnn. */
  function Op1nnn(m: State, op: Word): (r: State)
    ensures r.pc == NNN(op) && r == m.(pc := r.pc)
  {
    m.(pc := NNN(op))
  }

  /** CALL nnn: `stack[sp++] = pc`, the address of the next instruction, then jump. */
  function Op2nnn(m: State, op: Word): (r: State)
    requires WellFormed(m) && m.sp < StackSize
    ensures WellFormed(r)
    ensures r.stack[m.sp] == m.pc
    ensures forall s :: 0 <= s < StackSize && s != m.sp ==> r.stack[s] == m.stack[s]
    ensures r.sp == m.sp + 1 && r.pc == NNN(op)
    ensures r == m.(stack := r.stack, sp := r.sp, pc := r.pc)
  {
    m.(stack := m.stack[m.sp := m.pc], sp := m.sp + 1, pc := NNN(op))
  }

  /** Adds 2 to `pc` when `cond` holds: the next instruction is skipped. */
  function SkipIf(m: State, cond: bool): (r: State)
    ensures r.pc == (if cond then Add16(m.pc, 2) else m.pc)
    ensures r == m.(pc := r.pc)
  {
    if cond then m.(pc := Add16(m.pc, 2)) else m
  }

  /** SE Vx, kk. */
  function Op3xkk(m: State, op: Word): (r: State)
    requires WellFormed(m)
    ensures r.pc == (if m.v[X(op)] == KK(op) then Add16(m.pc, 2) else m.pc)
    ensures r == m.(pc := r.pc)
  {
    SkipIf(m, m.v[X(op)] == KK(op))
  }

  /** SNE Vx, kk. */
  function Op4xkk(m: State, op: Word): (r: State)
    requires WellFormed(m)
    ensures r.pc == (if m.v[X(op)] != KK(op) then Add16(m.pc, 2) else m.pc)
    ensures r == m.(pc := r.pc)
  {
    SkipIf(m, m.v[X(op)] != KK(op))
  }

  /** SE Vx, Vy. The low nibble is not looked at. */
  function Op5xy0(m: State, op: Word): (r: State)
    requires WellFormed(m)
    ensures r.pc == (if m.v[X(op)] == m.v[Y(op)] then Add16(m.pc, 2) else m.pc)
    ensures r == m.(pc := r.pc)
  {
    SkipIf(m, m.v[X(op)] == m.v[Y(op)])
  }

  /** LD Vx, kk. */
  function Op6xkk(m: State, op: Word): (r: State)
    requires WellFormed(m)
    ensures WellFormed(r)
    ensures r.v[X(op)] == KK(op)
    ensures RegistersAgreeExcept(m, r, {X(op)}) && r == m.(v := r.v)
  {
    SetV(m, X(op), KK(op))
  }

  /** ADD Vx, kk: eight-bit wrap-around and no carry flag. */
  function Op7xkk(m: State, op: Word): (r: State)
    requires WellFormed(m)
    ensures WellFormed(r)
    ensures var sum := m.v[X(op)] as int + KK(op);
            r.v[X(op)] == (if sum > 0xFF then sum - 0x100 else sum)
    ensures RegistersAgreeExcept(m, r, {X(op)}) && r == m.(v := r.v)
  {
    SetV(m, X(op), Add8(m.v[X(op)], KK(op)))
  }

  /** LD Vx, Vy. */
  function Op8xy0(m: State, op: Word): (r: State)
    requires WellFormed(m)
    ensures WellFormed(r)
    ensures r.v[X(op)] == m.v[Y(op)]
    ensures RegistersAgreeExcept(m, r, {X(op)}) && r == m.(v := r.v)
  {
    SetV(m, X(op), m.v[Y(op)])
  }

  /** OR Vx, Vy. */
  function Op8xy1(m: State, op: Word): (r: State)
    requires WellFormed(m)
    ensures WellFormed(r)
    ensures forall i :: 0 <= i < 8 ==> Bit(r.v[X(op)], i) == (Bit(m.v[X(op)], i) || Bit(m.v[Y(op)], i))
    ensures RegistersAgreeExcept(m, r, {X(op)}) && r == m.(v := r.v)
  {
    ByteOpBits(m.v[X(op)], m.v[Y(op)]);
    SetV(m, X(op), Or8(m.v[X(op)], m.v[Y(op)]))
  }

  /** AND Vx, Vy. */
  function Op8xy2(m: State, op: Word): (r: State)
    requires WellFormed(m)
    ensures WellFormed(r)
    ensures forall i :: 0 <= i < 8 ==> Bit(r.v[X(op)], i) == (Bit(m.v[X(op)], i) && Bit(m.v[Y(op)], i))
    ensures RegistersAgreeExcept(m, r, {X(op)}) && r == m.(v := r.v)
  {
    ByteOpBits(m.v[X(op)], m.v[Y(op)]);
    SetV(m, X(op), And8(m.v[X(op)], m.v[Y(op)]))
  }

  /** XOR Vx, Vy. */
  function Op8xy3(m: State, op: Word): (r: State)
    requires WellFormed(m)
    ensures WellFormed(r)
    ensures forall i :: 0 <= i < 8 ==> Bit(r.v[X(op)], i) == (Bit(m.v[X(op)], i) != Bit(m.v[Y(op)], i))
    ensures RegistersAgreeExcept(m, r, {X(op)}) && r == m.(v := r.v)
  {
    ByteOpBits(m.v[X(op)], m.v[Y(op)]);
    SetV(m, X(op), Xor8(m.v[X(op)], m.v[Y(op)]))
  }

  /**
   * ADD Vx, Vy: the sum is taken first, then VF gets the carry, then Vx gets
   * the low eight bits. With x = F the low eight bits are what VF keeps.
   */
  function Op8xy4(m: State, op: Word): (r: State)
    requires WellFormed(m)
    ensures WellFormed(r)
    ensures var sum := m.v[X(op)] as int + m.v[Y(op)];
            var carry := if sum > 0xFF then 1 else 0;
            && r.v[X(op)] as int + 0x100 * carry == sum
            && (X(op) != VF ==> r.v[VF] == carry)
    ensures RegistersAgreeExcept(m, r, {X(op), VF}) && r == m.(v := r.v)
  {
    var sum := m.v[X(op)] as int + m.v[Y(op)];
    var flagged := SetV(m, VF, if sum > 0xFF then 1 else 0);
    SetV(flagged, X(op), sum % 0x100)
  }

  /**
   * SUB Vx, Vy: VF gets 1 iff Vx > Vy, then Vx gets Vx - Vy wrapped. The
   * difference is taken after the flag is written, so an operand that is VF
   * reads the flag.
   */
  function Op8xy5(m: State, op: Word): (r: State)
    requires WellFormed(m)
    ensures WellFormed(r)
    ensures var flag := if m.v[X(op)] > m.v[Y(op)] then 1 else 0;
            X(op) != VF && Y(op) != VF ==>
              && r.v[VF] == flag
              && r.v[X(op)] == (if m.v[X(op)] >= m.v[Y(op)] then m.v[X(op)] as int - m.v[Y(op)]
                                else m.v[X(op)] as int - m.v[Y(op)] + 0x100)
    ensures var flag := if m.v[X(op)] > m.v[Y(op)] then 1 else 0;
            && (X(op) == VF ==> r.v[VF] == Sub8(flag, if Y(op) == VF then flag else m.v[Y(op)]))
            && (X(op) != VF && Y(op) == VF ==> r.v[VF] == flag && r.v[X(op)] == Sub8(m.v[X(op)], flag))
    ensures RegistersAgreeExcept(m, r, {X(op), VF}) && r == m.(v := r.v)
  {
    var flagged := SetV(m, VF, if m.v[X(op)] > m.v[Y(op)] then 1 else 0);
    SetV(flagged, X(op), Sub8(flagged.v[X(op)], flagged.v[Y(op)]))
  }

  /**
   * SHR Vx: VF gets the bit shifted out (bit 0), then Vx is halved. Vy is not
   * read. With x = F the halving applies to the flag just written, leaving 0.
   */
  function Op8xy6(m: State, op: Word): (r: State)
    requires WellFormed(m)
    ensures WellFormed(r)
    ensures X(op) != VF ==> r.v[VF] <= 1 && 2 * (r.v[X(op)] as int) + r.v[VF] == m.v[X(op)]
    ensures X(op) == VF ==> r.v[VF] == 0
    ensures RegistersAgreeExcept(m, r, {X(op), VF}) && r == m.(v := r.v)
  {
    var flagged := SetV(m, VF, m.v[X(op)] % 2);
    SetV(flagged, X(op), flagged.v[X(op)] / 2)
  }

  /**
   * SUBN Vx, Vy: VF gets 1 iff Vy > Vx, then Vx gets Vy - Vx wrapped, read
   * after the flag is written.
   */
  function Op8xy7(m: State, op: Word): (r: State)
    requires WellFormed(m)
    ensures WellFormed(r)
    ensures var flag := if m.v[Y(op)] > m.v[X(op)] then 1 else 0;
            X(op) != VF && Y(op) != VF ==>
              && r.v[VF] == flag
              && r.v[X(op)] == (if m.v[Y(op)] >= m.v[X(op)] then m.v[Y(op)] as int - m.v[X(op)]
                                else m.v[Y(op)] as int - m.v[X(op)] + 0x100)
    ensures var flag := if m.v[Y(op)] > m.v[X(op)] then 1 else 0;
            && (X(op) == VF ==> r.v[VF] == Sub8(if Y(op) == VF then flag else m.v[Y(op)], flag))
            && (X(op) != VF && Y(op) == VF ==> r.v[VF] == flag && r.v[X(op)] == Sub8(flag, m.v[X(op)]))
    ensures RegistersAgreeExcept(m, r, {X(op), VF}) && r == m.(v := r.v)
  {
    var flagged := SetV(m, VF, if m.v[Y(op)] > m.v[X(op)] then 1 else 0);
    SetV(flagged, X(op), Sub8(flagged.v[Y(op)], flagged.v[X(op)]))
  }

  /**
   * SHL Vx: VF gets the bit shifted out (bit 7), then Vx is doubled modulo
   * 256. Vy is not read. With x = F the doubling applies to the flag.
   */
  function Op8xyE(m: State, op: Word): (r: State)
    requires WellFormed(m)
    ensures WellFormed(r)
    ensures X(op) != VF ==> r.v[VF] <= 1 && r.v[X(op)] as int + 0x100 * (r.v[VF] as int) == 2 * (m.v[X(op)] as int)
    ensures X(op) == VF ==> r.v[VF] == 2 * (m.v[VF] as int / 0x80)
    ensures RegistersAgreeExcept(m, r, {X(op), VF}) && r == m.(v := r.v)
  {
    var flagged := SetV(m, VF, m.v[X(op)] / 0x80);
    SetV(flagged, X(op), (flagged.v[X(op)] as int * 2) % 0x100)
  }

  /** SNE Vx, Vy. The low nibble is not looked at. */
  function Op9xy0(m: State, op: Word): (r: State)
    requires WellFormed(m)
    ensures r.pc == (if m.v[X(op)] != m.v[Y(op)] then Add16(m.pc, 2) else m.pc)
    ensures r == m.(pc := r.pc)
  {
    SkipIf(m, m.v[X(op)] != m.v[Y(op)])
  }

  /** LD I, nnn. */
  function OpAnnn(m: State, op: Word): (r: State)
    ensures r.index == NNN(op) && r == m.(index := r.index)
  {
    m.(index := NNN(op))
  }

  /** JP V0, nnn: the sum (at most 0x10FE) is not wrapped. */
  function OpBnnn(m: State, op: Word): (r: State)
    requires WellFormed(m)
    ensures r.pc == m.v[0] + NNN(op) && r == m.(pc := r.pc)
  {
    m.(pc := m.v[0] + NNN(op))
  }

  /** RND Vx, kk: a random byte masked with kk; the byte is a parameter. */
  function OpCxkk(m: State, op: Word, random: Byte): (r: State)
    requires WellFormed(m)
    ensures WellFormed(r)
    ensures forall i :: 0 <= i < 8 ==> Bit(r.v[X(op)], i) == (Bit(random, i) && Bit(KK(op), i))
    ensures RegistersAgreeExcept(m, r, {X(op)}) && r == m.(v := r.v)
  {
    ByteOpBits(random, KK(op));
    SetV(m, X(op), And8(random, KK(op)))
  }

  /**
   * The sprite origin: Vx and Vy wrapped to the screen, that is the one
   * column (row) on the screen that differs from Vx (Vy) by whole widths
   * (heights).
   */
  function XPos(m: State, op: Word): (x: int)
    requires WellFormed(m)
    ensures 0 <= x < VideoWidth
    ensures (m.v[X(op)] - x) % VideoWidth == 0 && x <= m.v[X(op)]
  {
    m.v[X(op)] % VideoWidth
  }

  function YPos(m: State, op: Word): (y: int)
    requires WellFormed(m)
    ensures 0 <= y < VideoHeight
    ensures (m.v[Y(op)] - y) % VideoHeight == 0 && y <= m.v[Y(op)]
  {
    m.v[Y(op)] % VideoHeight
  }

  /**
   * DRW can run without undefined behaviour: a sprite of height 0 reads and
   * writes nothing, whatever I is; otherwise the n sprite rows lie in memory,
   * and every framebuffer index the loop forms lies in the framebuffer.
   */
  predicate DrawDefined(m: State, op: Word)
  {
    && WellFormed(m)
    && (|| N(op) == 0
        || (&& m.index + N(op) <= MemorySize
            && (YPos(m, op) + N(op) - 1) * VideoWidth + XPos(m, op) + 7 < PixelCount))
  }

  /** The sprite: the n bytes from I, none when n is 0. */
  function SpriteRows(m: State, op: Word): (rows: seq<Byte>)
    requires WellFormed(m) && (N(op) == 0 || m.index + N(op) <= MemorySize)
    ensures |rows| == N(op)
    ensures forall r :: 0 <= r < N(op) ==> rows[r] == m.memory[m.index + r]
  {
    if N(op) == 0 then [] else m.memory[m.index..m.index + N(op)]
  }

  /**
   * DRW Vx, Vy, n: VF is cleared, then each set sprite bit turns its target
   * cell over, and VF becomes 1 when such a cell was lit (`DrawProperties`).
   */
  function OpDxyn(m: State, op: Word): (r: State)
    requires DrawDefined(m, op)
    ensures WellFormed(r)
    ensures r == m.(video := r.video, v := r.v)
  {
    var rows, x, y := SpriteRows(m, op), XPos(m, op), YPos(m, op);
    m.(video := Flipped(m.video, rows, x, y, Full(rows)),
       v := m.v[VF := if Collides(m.video, rows, x, y, Full(rows)) then 1 else 0])
  }

  /**
   * What DRW does, cell by cell: every target of a set sprite bit is turned
   * over, every other cell is kept, VF is 1 exactly when some target was lit,
   * and no other register changes.
   */
  lemma DrawProperties(m: State, op: Word)
    requires DrawDefined(m, op)
    ensures FlipsTargets(m.video, OpDxyn(m, op).video, SpriteRows(m, op), XPos(m, op), YPos(m, op))
    ensures KeepsOthers(m.video, OpDxyn(m, op).video, SpriteRows(m, op), XPos(m, op), YPos(m, op))
    ensures OpDxyn(m, op).v[VF] == if SpriteCollides(m.video, SpriteRows(m, op), XPos(m, op), YPos(m, op)) then 1 else 0
    ensures RegistersAgreeExcept(m, OpDxyn(m, op), {VF})
  {
    DrawSpec(m.video, SpriteRows(m, op), XPos(m, op), YPos(m, op));
  }

  /**
   * DRW as the interpreter computes it, row by row and column by column:
   * the framebuffer and VF after the last of the N(op) rows.
   */
  lemma DrawByRows(m: State, op: Word)
    requires DrawDefined(m, op)
    ensures OpDxyn(m, op)
         == m.(video := RowsDrawn(m.video, SpriteRows(m, op), XPos(m, op), YPos(m, op), N(op)),
               v := m.v[VF := if RowsCollide(m.video, SpriteRows(m, op), XPos(m, op), YPos(m, op), N(op)) then 1 else 0])
  {
    var rows, x, y := SpriteRows(m, op), XPos(m, op), YPos(m, op);
    RowsFlipped(m.video, rows, x, y, N(op));
    RowsCollides(m.video, rows, x, y, N(op));
    assert N(op) * VideoWidth == Full(rows);
  }

  /** SKP Vx: skip when the key numbered Vx is down. */
  function OpEx9E(m: State, op: Word): (r: State)
    requires WellFormed(m) && m.v[X(op)] < KeyCount
    ensures r.pc == (if m.keypad[m.v[X(op)]] != 0 then Add16(m.pc, 2) else m.pc)
    ensures r == m.(pc := r.pc)
  {
    SkipIf(m, m.keypad[m.v[X(op)]] != 0)
  }

  /** SKNP Vx: skip when the key numbered Vx is up. */
  function OpExA1(m: State, op: Word): (r: State)
    requires WellFormed(m) && m.v[X(op)] < KeyCount
    ensures r.pc == (if m.keypad[m.v[X(op)]] == 0 then Add16(m.pc, 2) else m.pc)
    ensures r == m.(pc := r.pc)
  {
    SkipIf(m, m.keypad[m.v[X(op)]] == 0)
  }

  /** LD Vx, DT. */
  function OpFx07(m: State, op: Word): (r: State)
    requires WellFormed(m)
    ensures WellFormed(r)
    ensures r.v[X(op)] == m.delayTimer
    ensures RegistersAgreeExcept(m, r, {X(op)}) && r == m.(v := r.v)
  {
    SetV(m, X(op), m.delayTimer)
  }

  /** The lowest-numbered key at or above `from` that is down. */
  function LowestPressed(keys: seq<Byte>, from: nat): (r: Option<nat>)
    requires from <= |keys|
    ensures r.Some? ==> from <= r.value < |keys| && keys[r.value] != 0
                        && forall j :: from <= j < r.value ==> keys[j] == 0
    ensures r.None? ==> forall j :: from <= j < |keys| ==> keys[j] == 0
    decreases |keys| - from
  {
    if from == |keys| then None
    else if keys[from] != 0 then Some(from)
    else LowestPressed(keys, from + 1)
  }

  /**
   * LD Vx, K: the lowest-numbered key that is down goes into Vx; with no key
   * down, `pc` goes back by 2 so the same instruction is fetched again.
   */
  function OpFx0A(m: State, op: Word): (r: State)
    requires WellFormed(m)
    ensures WellFormed(r)
    ensures (exists k :: 0 <= k < KeyCount && m.keypad[k] != 0) ==>
              && r.pc == m.pc
              && r.v[X(op)] < KeyCount && m.keypad[r.v[X(op)]] != 0
              && forall j :: 0 <= j < r.v[X(op)] ==> m.keypad[j] == 0
    ensures (forall k :: 0 <= k < KeyCount ==> m.keypad[k] == 0) ==>
              r.pc + 2 == m.pc || (m.pc < 2 && r.pc + 2 == m.pc + 0x1_0000)
    ensures (forall k :: 0 <= k < KeyCount ==> m.keypad[k] == 0) ==> r.v == m.v
    ensures RegistersAgreeExcept(m, r, {X(op)}) && r == m.(v := r.v, pc := r.pc)
  {
    match LowestPressed(m.keypad, 0)
    case Some(k) => SetV(m, X(op), k)
    case None => m.(pc := Sub16(m.pc, 2))
  }

  /** LD DT, Vx. */
  function OpFx15(m: State, op: Word): (r: State)
    requires WellFormed(m)
    ensures r.delayTimer == m.v[X(op)] && r == m.(delayTimer := r.delayTimer)
  {
    m.(delayTimer := m.v[X(op)])
  }

  /** LD ST, Vx. */
  function OpFx18(m: State, op: Word): (r: State)
    requires WellFormed(m)
    ensures r.soundTimer == m.v[X(op)] && r == m.(soundTimer := r.soundTimer)
  {
    m.(soundTimer := m.v[X(op)])
  }

  /** ADD I, Vx: sixteen-bit wrap-around, no flag. */
  function OpFx1E(m: State, op: Word): (r: State)
    requires WellFormed(m)
    ensures r.index == m.index + m.v[X(op)] || r.index == m.index + m.v[X(op)] - 0x1_0000
    ensures r == m.(index := r.index)
  {
    m.(index := Add16(m.index, m.v[X(op)]))
  }

  /**
   * LD F, Vx: I gets the address of the glyph of digit Vx. Nothing limits Vx
   * to a digit: above 0xF, I lands past the font.
   */
  function OpFx29(m: State, op: Word): (r: State)
    requires WellFormed(m)
    ensures r.index == FontStart + 5 * (m.v[X(op)] as int)
    ensures r == m.(index := r.index)
    ensures m.v[X(op)] < 0x10 && m.memory[FontStart..FontStart + FontSize] == Font ==>
              r.index + 5 <= MemorySize
              && m.memory[r.index..r.index + 5] == Font[5 * m.v[X(op)]..5 * m.v[X(op)] + 5]
  {
    var digit := m.v[X(op)];
    var r := m.(index := FontStart + 5 * (digit as int));
    assert digit < 0x10 ==>
      m.memory[r.index..r.index + 5] == m.memory[FontStart..FontStart + FontSize][5 * digit..5 * digit + 5];
    r
  }

  /** LD B, Vx: the decimal digits of Vx at I, I+1, I+2, hundreds first. */
  function OpFx33(m: State, op: Word): (r: State)
    requires WellFormed(m) && m.index + 2 < MemorySize
    ensures WellFormed(r)
    ensures r.memory[m.index] < 10 && r.memory[m.index + 1] < 10 && r.memory[m.index + 2] < 10
    ensures 100 * (r.memory[m.index] as int) + 10 * (r.memory[m.index + 1] as int) + r.memory[m.index + 2] == m.v[X(op)]
    ensures forall a :: 0 <= a < MemorySize && !(m.index <= a <= m.index + 2) ==> r.memory[a] == m.memory[a]
    ensures r == m.(memory := r.memory)
  {
    var value := m.v[X(op)];
    var ones := m.memory[m.index + 2 := value % 10];
    var tens := ones[m.index + 1 := (value / 10) % 10];
    m.(memory := tens[m.index := (value / 100) % 10])
  }

  /** LD [I], Vx: V0..Vx to memory at I..I+x. I itself is not changed. */
  function OpFx55(m: State, op: Word): (r: State)
    requires WellFormed(m) && m.index + X(op) < MemorySize
    ensures WellFormed(r)
    ensures r.memory[m.index..m.index + X(op) + 1] == m.v[..X(op) + 1]
    ensures forall a :: 0 <= a < MemorySize && !(m.index <= a <= m.index + X(op)) ==> r.memory[a] == m.memory[a]
    ensures r == m.(memory := r.memory)
  {
    m.(memory := seq(MemorySize, a requires 0 <= a < MemorySize =>
                       if m.index <= a <= m.index + X(op) then m.v[a - m.index] else m.memory[a]))
  }

  /** LD Vx, [I]: memory at I..I+x to V0..Vx. I itself is not changed. */
  function OpFx65(m: State, op: Word): (r: State)
    requires WellFormed(m) && m.index + X(op) < MemorySize
    ensures WellFormed(r)
    ensures r.v[..X(op) + 1] == m.memory[m.index..m.index + X(op) + 1]
    ensures forall i :: X(op) < i < RegisterCount ==> r.v[i] == m.v[i]
    ensures r == m.(v := r.v)
  {
    m.(v := seq(RegisterCount, i requires 0 <= i < RegisterCount =>
                  if i <= X(op) then m.memory[m.index + i] else m.v[i]))
  }
}

=== FILE: properties.dfy ===
/**
 * Properties of the interpreter that relate several routines or several
 * cycles: runs of cycles and their timers, the key wait, CALL followed by
 * RET, drawing a sprite twice, storing and loading registers, and a few
 * concrete machine states.
 */
module Properties {
  import opened Bits
  import opened Machine
  import opened Draw
  import opened Opcodes
  import opened Dispatch

  /**
   * Runs one cycle per byte of `randoms`, each cycle drawing its RND byte
   * from it; `None` when some cycle would hit undefined behaviour.
   */
  function Run(m: State, randoms: seq<Byte>): (r: Option<State>)
    decreases |randoms|
  {
    if |randoms| == 0 then Some(m)
    else if !CanCycle(m) then None
    else Run(Cycle(m, randoms[0]), randoms[1..])
  }

  /** Every cycle of the run can execute, and none of them is LD DT, Vx or LD ST, Vx. */
  predicate LeavesTimers(m: State, randoms: seq<Byte>)
    decreases |randoms|
  {
    || |randoms| == 0
    || (&& CanCycle(m)
        && Decode(Fetch(m)) != LdDtVx
        && Decode(Fetch(m)) != LdStVx
        && LeavesTimers(Cycle(m, randoms[0]), randoms[1..]))
  }

  /**
   * With no routine writing them, both timers go down by one per cycle and
   * stop at zero: after n cycles a timer that was t holds max(t - n, 0).
   */
  lemma {:induction false} TimersCountDown(m: State, randoms: seq<Byte>)
    requires LeavesTimers(m, randoms)
    ensures Run(m, randoms).Some?
    ensures Run(m, randoms).value.delayTimer == if m.delayTimer >= |randoms| then m.delayTimer - |randoms| else 0
    ensures Run(m, randoms).value.soundTimer == if m.soundTimer >= |randoms| then m.soundTimer - |randoms| else 0
    decreases |randoms|
  {
    if |randoms| > 0 {
      TimersCountDown(Cycle(m, randoms[0]), randoms[1..]);
    }
  }

  /** The keypad is input only: no run of cycles writes it. */
  lemma {:induction false} RunKeepsKeypad(m: State, randoms: seq<Byte>)
    requires Run(m, randoms).Some?
    ensures Run(m, randoms).value.keypad == m.keypad
    decreases |randoms|
  {
    if |randoms| > 0 {
      RunKeepsKeypad(Cycle(m, randoms[0]), randoms[1..]);
    }
  }

  /** Two steps of 2 on a 16-bit counter are one step of 4. */
  lemma AddTwiceTwo(a: Word)
    ensures Add16(Add16(a, 2), 2) == Add16(a, 4)
  {
  }

  /**
   * The routine runs after `pc += 2`: a taken SE Vx, kk leaves `pc` four
   * past the instruction, an untaken one two past it.
   */
  lemma CycleSkip(m: State, random: Byte)
    requires CanCycle(m) && Decode(Fetch(m)) == SeByte
    ensures Cycle(m, random).pc
         == if m.v[X(Fetch(m))] == KK(Fetch(m)) then Add16(m.pc, 4) else Add16(m.pc, 2)
  {
    AddTwiceTwo(m.pc);
  }

  /** A conditional skip changes `pc` exactly when its condition holds. */
  lemma SkipsIffCondition(m: State, op: Word)
    requires WellFormed(m)
    ensures Op3xkk(m, op).pc != m.pc <==> m.v[X(op)] == KK(op)
    ensures Op4xkk(m, op).pc != m.pc <==> m.v[X(op)] != KK(op)
    ensures Op5xy0(m, op).pc != m.pc <==> m.v[X(op)] == m.v[Y(op)]
    ensures Op9xy0(m, op).pc != m.pc <==> m.v[X(op)] != m.v[Y(op)]
    ensures m.v[X(op)] < KeyCount ==> (OpEx9E(m, op).pc != m.pc <==> m.keypad[m.v[X(op)]] != 0)
    ensures m.v[X(op)] < KeyCount ==> (OpExA1(m, op).pc != m.pc <==> m.keypad[m.v[X(op)]] == 0)
  {
  }

  /**
   * CALL stores the address of the instruction after it, because the
   * cycle has already advanced `pc` when the routine runs.
   */
  lemma CallStoresNext(m: State, random: Byte)
    requires CanCycle(m) && Decode(Fetch(m)) == Call
    ensures Cycle(m, random).stack[m.sp] == Add16(m.pc, 2)
    ensures Cycle(m, random).sp == m.sp + 1
    ensures Cycle(m, random).pc == NNN(Fetch(m))
  {
  }

  /**
   * LD Vx, K with no key down: `pc` is moved back onto the instruction, so
   * the cycle changes nothing but the timers and the same wait runs again.
   */
  lemma WaitRepeats(m: State, random: Byte)
    requires CanCycle(m) && Decode(Fetch(m)) == LdVxK
    requires forall k :: 0 <= k < KeyCount ==> m.keypad[k] == 0
    ensures Cycle(m, random) == Tick(m)
    ensures Fetch(Cycle(m, random)) == Fetch(m)
  {
    var op, next := Fetch(m), Advance(m);
    WaitRoute(next, op, random);
    assert LowestPressed(m.keypad, 0).None?;
    assert OpFx0A(next, op) == m;
    assert Cycle(m, random) == Tick(OpFx0A(next, op));
  }

  /** LD Vx, K with some key down: Vx gets the lowest key that is down, and execution moves on. */
  lemma WaitTakesLowestKey(m: State, random: Byte, key: nat)
    requires CanCycle(m) && Decode(Fetch(m)) == LdVxK
    requires key < KeyCount && m.keypad[key] != 0 && forall j :: 0 <= j < key ==> m.keypad[j] == 0
    ensures Cycle(m, random) == Tick(m.(pc := Add16(m.pc, 2), v := m.v[X(Fetch(m)) := key]))
  {
    WaitRoute(Advance(m), Fetch(m), random);
    LowestFound(m.keypad, 0, key);
  }

  /** `LowestPressed` finds the first key down at or after `from`. */
  lemma {:induction false} LowestFound(keys: seq<Byte>, from: nat, key: nat)
    requires from <= key < |keys| && keys[key] != 0 && forall j :: from <= j < key ==> keys[j] == 0
    ensures LowestPressed(keys, from) == Some(key)
    decreases key - from
  {
    if from < key {
      LowestFound(keys, from + 1, key);
    }
  }

  /**
   * CALL then RET, as the two routines are written: CALL writes the return
   * address at `sp` and moves `sp` up, RET reads the slot at the new `sp`
   * and moves it down. `sp` ends where it started, the return address stays
   * in its slot, and `pc` becomes the slot above it.
   */
  lemma CallThenReturn(m: State, op: Word)
    requires WellFormed(m) && m.sp + 1 < StackSize
    ensures Op00EE(Op2nnn(m, op)).sp == m.sp
    ensures Op00EE(Op2nnn(m, op)).stack == m.stack[m.sp := m.pc]
    ensures Op00EE(Op2nnn(m, op)).pc == m.stack[m.sp + 1]
  {
  }

  /**
   * The first CALL after construction, from the start address: RET comes
   * back to the empty slot 1, address 0, and not to the caller.
   */
  lemma FirstCallReturnsToZero(op: Word)
    requires Family(op) == 0x2
    ensures Op00EE(Op2nnn(Initial(), op)).pc == 0
    ensures Op00EE(Op2nnn(Initial(), op)).pc != Initial().pc
  {
    CallThenReturn(Initial(), op);
  }

  /**
   * Drawing the same sprite twice, with Vx and Vy not the flag, puts every
   * framebuffer cell back; the second draw reports a collision exactly when
   * one of the sprite's targets was dark before the first.
   */
  lemma DrawTwiceRestores(m: State, op: Word)
    requires DrawDefined(m, op) && X(op) != VF && Y(op) != VF
    ensures DrawDefined(OpDxyn(m, op), op)
    ensures OpDxyn(OpDxyn(m, op), op).video == m.video
    ensures OpDxyn(OpDxyn(m, op), op).v[VF] == 1
        <==> exists p :: 0 <= p < PixelCount && Hit(SpriteRows(m, op), XPos(m, op), YPos(m, op), p, N(op) * VideoWidth)
                         && m.video[p] == 0
  {
    var once := OpDxyn(m, op);
    var rows, x, y := SpriteRows(m, op), XPos(m, op), YPos(m, op);
    assert SpriteRows(once, op) == rows && XPos(once, op) == x && YPos(once, op) == y;
    assert Full(rows) == N(op) * VideoWidth;
    FlipTwice(m.video, rows, x, y, Full(rows));
    CollidesAfterFlip(m.video, rows, x, y, Full(rows));
  }

  /**
   * DRW with height 0 runs for every I: the row loop never reads memory, so
   * the routine only clears VF.
   */
  lemma EmptySpriteClearsFlag(m: State, op: Word)
    requires WellFormed(m) && Family(op) == 0xD && N(op) == 0
    ensures Decode(op) == Drw && Defined(m, Decode(op), op)
    ensures OpDxyn(m, op) == m.(v := m.v[VF := 0])
  {
    DecodeByFamily(op);
    Nothing(m.video, SpriteRows(m, op), XPos(m, op), YPos(m, op));
  }

  /**
   * Only the origin wraps: Vx is taken modulo the screen width, so Vx and
   * Vx - 64 draw the same cells and report the same collision.
   */
  lemma OriginWraps(m: State, op: Word)
    requires DrawDefined(m, op) && m.v[X(op)] >= VideoWidth
    ensures var shifted := m.(v := m.v[X(op) := m.v[X(op)] - VideoWidth]);
            && DrawDefined(shifted, op)
            && OpDxyn(shifted, op).video == OpDxyn(m, op).video
            && OpDxyn(shifted, op).v[VF] == OpDxyn(m, op).v[VF]
  {
    var shifted := m.(v := m.v[X(op) := m.v[X(op)] - VideoWidth]);
    ShiftKeepsOrigin(m, op);
    assert SpriteRows(shifted, op) == SpriteRows(m, op);
  }

  /** Taking 64 off Vx leaves the wrapped sprite origin where it was. */
  lemma ShiftKeepsOrigin(m: State, op: Word)
    requires WellFormed(m) && m.v[X(op)] >= VideoWidth
    ensures var shifted := m.(v := m.v[X(op) := m.v[X(op)] - VideoWidth]);
            && WellFormed(shifted)
            && XPos(shifted, op) == XPos(m, op)
            && YPos(shifted, op) == YPos(m, op)
  {
  }

  /** LD [I], Vx then LD Vx, [I]: the registers read back are the ones stored. */
  lemma StoreThenLoad(m: State, op: Word)
    requires WellFormed(m) && m.index + X(op) < MemorySize
    ensures OpFx65(OpFx55(m, op), op) == OpFx55(m, op)
  {
    var stored := OpFx55(m, op);
    var loaded := OpFx65(stored, op);
    forall i | 0 <= i < RegisterCount
      ensures loaded.v[i] == m.v[i]
    {
      if i <= X(op) {
        assert loaded.v[i] == loaded.v[..X(op) + 1][i];
        assert stored.memory[m.index..m.index + X(op) + 1][i] == stored.memory[m.index + i];
      }
    }
  }

  /** LD Vx, [I] then LD [I], Vx: the memory written back is the memory read. */
  lemma LoadThenStore(m: State, op: Word)
    requires WellFormed(m) && m.index + X(op) < MemorySize
    ensures OpFx55(OpFx65(m, op), op) == OpFx65(m, op)
  {
    var loaded := OpFx65(m, op);
    var stored := OpFx55(loaded, op);
    forall a | 0 <= a < MemorySize
      ensures stored.memory[a] == m.memory[a]
    {
      if m.index <= a <= m.index + X(op) {
        assert stored.memory[m.index..m.index + X(op) + 1][a - m.index] == stored.memory[a];
        assert loaded.v[..X(op) + 1][a - m.index] == loaded.v[a - m.index];
      }
    }
  }

  /** SHR and SHL read only Vx: two opcodes that differ in y alone do the same. */
  lemma ShiftsIgnoreY(m: State, op: Word, op': Word)
    requires WellFormed(m) && X(op') == X(op)
    ensures Op8xy6(m, op) == Op8xy6(m, op')
    ensures Op8xyE(m, op) == Op8xyE(m, op')
  {
  }

  /** 8014 with V0 = 0xFF and V1 = 1: V0 wraps to 0 and the carry lands in VF. */
  lemma AddCarryExample(m: State)
    requires WellFormed(m) && m.v[0] == 0xFF && m.v[1] == 1
    ensures Op8xy4(m, 0x8014).v[0] == 0 && Op8xy4(m, 0x8014).v[VF] == 1
  {
  }

  /** 8015 with V0 = V1: the difference is 0 and VF is 0, since Vx is not greater than Vy. */
  lemma SubEqualExample(m: State)
    requires WellFormed(m) && m.v[0] == m.v[1]
    ensures Op8xy5(m, 0x8015).v[0] == 0 && Op8xy5(m, 0x8015).v[VF] == 0
  {
  }

  /** F033 with V0 = 254 writes the digits 2, 5, 4. */
  lemma DecimalExample(m: State)
    requires WellFormed(m) && m.v[0] == 254 && m.index + 2 < MemorySize
    ensures OpFx33(m, 0xF033).memory[m.index..m.index + 3] == [2, 5, 4]
  {
  }

  /**
   * After construction and loading a program, LD F, Vx with a digit in Vx
   * points I at that digit's five-byte glyph.
   */
  lemma GlyphAfterLoad(rom: seq<Byte>, op: Word, digit: Byte)
    requires |rom| <= MemorySize - StartAddress && digit < 0x10
    ensures var m := Load(Initial(), rom).(v := Initial().v[X(op) := digit]);
            && OpFx29(m, op).index + 5 <= MemorySize
            && OpFx29(m, op).memory[OpFx29(m, op).index..OpFx29(m, op).index + 5] == Font[5 * digit..5 * digit + 5]
  {
    LoadKeepsFont(Initial(), rom);
  }
}
